=== FILE: README.md ===
# hff.py as a verified model

`bin/hff.py` is a command-line tool that treats the flat file list of a Hugging Face
repository as a directory tree. It offers `ls`, `mkdir`, `rm`, `mv` and `put`, and it
stores snapshots as archive-plus-manifest pairs under a snapshot directory.

This project models the part of the tool that decides what to do: everything between
fetching the repo's file list and calling the hub.

- **Path handling** (`RepoPaths`). `normalize_path` comes in two forms: its `while` loop as a
  method, and the function `Normalize` it is proved equal to. Alongside it are `is_root`,
  `parent_dir` and the basename that `pathlib` gives.
- **Virtual directories** (`VirtualDirs`).
  - `ensure_dir_ops` is a method. It grows a shared, mutable `PathSet` in place.
  - `unique_dest` is a method with a `while true` loop. Its termination measure is the
    part of the finite set it has not yet passed over.
- **Commits** (`Commits`). The operations are the datatype `Add | Copy | Delete`; it stands
  for the three version-probing constructors. A command's decision is a `Plan`: `Exit(code)`
  after `die`, `Unchanged` (mkdir prints "exists"), or `Commit(ops, message)`.
  - `Apply` gives a reference meaning to a commit over the set of repo paths. Add and Copy
    insert a path; Delete removes one.
  - The effect lemmas of the commands are stated against `Apply`.
- **File-system commands** (`FsCommands`). `ls` builds its `children` set in `for` loops and
  sorts it. `mkdir`, `rm`, `mv` and `put` compute their plans from the file list and their
  arguments.
- **Snapshots** (`Snapshots`). This covers the slug and id of `snap_id_from_name`, the ids
  `snapshot list` finds, and the commit `snapshot destroy` makes.
- **Python helpers** (`Strings`, `Ordering`). These are the string built-ins the tool relies
  on (`strip`, `split`, `join`, `startswith`, `str(n)`, and so on), Python's ordering of
  `str`, and `sorted` over a set.

What follows from the proofs:

- A normalised path never starts or ends with '/' and never holds '\'.
- As a consequence, the branches that test `endswith("/")` after normalisation are never
  taken:
  - the prefix delete of `rm` (`bin/hff.py:203-207`);
  - "mv file dir/" (`bin/hff.py:234-235`);
  - the "dst is a directory" case of `put` (`bin/hff.py:271-272`).

  The model keeps these branches as written. `RmOutcome`, `Mv` and `Put` show that they are
  dead: `rm dir/` deletes only a file named `dir`, and `mv f dir/` moves `f` to the file
  `dir`, or to its first free `__dupN` name when `dir` is already listed.
- `normalize_path` is not idempotent: ".//./" followed by a path `t` normalises to "./" + `t`,
  which normalises further (so ".//./a" gives "./a", which gives "a";
  `NormalizeNotIdempotent`). Its fixed points are exactly the `Clean` paths.
- `mkdir` normalises its path twice: once itself, once inside `ensure_dir_ops`. So a path
  such as "/ /", which normalises to " ", is reported as already existing.
- `snap_id_from_name` is not idempotent on its own slugs. A slug never starts with one of
  "._-". It ends with one only when the 120-character cut left it there
  (`SlugEndingInPunctIsCut`), and such a slug loses that ending when slugged again
  (`CutSlugNotFixed`). A name of 119 letters followed by "_b" is one such case
  (`CutExample`).
- `snapshot list` also lists manifests in sub-directories of the snapshot directory.
  `snapshot destroy` matches the paths that start with `<snapdir>/<id>.`, so a manifest
  that `list` finds in a sub-directory is not matched by its bare id. Conversely, the id
  "x" also matches "<snapdir>/x.d/inner", and the id "a/b" matches "<snapdir>/a/b.tar".

## Model

| member | source | states |
|---|---|---|
| Strings.LStrip | bin/hff.py:36 | `lstrip` removes a prefix made only of the given characters, and the rest does not start with one |
| Strings.RStrip | bin/hff.py:138 | `rstrip` removes a suffix made only of the given characters, and the rest does not end with one |
| Strings.StartsWith | bin/hff.py:38 | definition of `str.startswith` (also bin/hff.py:140, :205, :396, :472); `WithPrefix`, `Take`, `SplitFirst` and `ManifestPath` state what it gives |
| Strings.EndsWith | bin/hff.py:203 | definition of `str.endswith` (also bin/hff.py:234, :271, :396); `SnapshotPrefix`, `NameBeforeSuffix` and `ManifestIdOf` state what it gives, and `NormalizeShape` that it is false on every normalised path |
| Strings.Strip | bin/hff.py:35 | `strip` returns the contiguous middle of `s` such that every character before or after it is in the set, and that middle neither starts nor ends with one; it only removes characters, and returns its input exactly when there is nothing to strip |
| Strings.StripPieces | bin/hff.py:35 | any left strip followed by a right strip is the middle of `s` that `Strip` promises, with the boundary, character and identity properties |
| Strings.StripEmpty | bin/hff.py:339 | `strip(cs)` gives "" exactly when every character is in `cs` |
| Strings.ReplaceChar | bin/hff.py:37 | `replace` keeps every character in place except the target, which becomes the replacement at its own position; so the length is kept, no target is left, and nothing changes when the target is absent |
| Strings.IndexOf | bin/hff.py:149 | `find` gives the first position of the character, or -1 exactly when it is absent |
| Strings.SplitFirst | bin/hff.py:149 | `split("/", 1)[0]` has no separator; it is the whole string without one, and otherwise is followed by the separator |
| Strings.LastIndexOf | bin/hff.py:51 | `rsplit("/", 1)` splits at the last separator: there is none after the returned position, and -1 means none at all |
| Strings.WithPrefix | bin/hff.py:140 | the comprehension keeps exactly the listed strings that start with the prefix |
| Strings.WithPrefixConcat | bin/hff.py:472 | filtering by prefix distributes over concatenation, so kept paths stay in list order |
| Strings.Take | bin/hff.py:341 | `s[:n]` is the prefix of `s` with exactly min(n, len(s)) characters |
| Strings.DropLast | bin/hff.py:396 | `s[:-n]` is `s` with its last `n` characters removed, or "" when `s` is shorter |
| Strings.DecimalRoundTrip | bin/hff.py:72 | reading back the digits of `str(n)` gives `n` |
| Strings.DecimalInjective | bin/hff.py:72 | distinct counters give distinct `str(i)` |
| Strings.DecimalString | bin/hff.py:72 | definition of `str(n)` for a natural; `DecimalRoundTrip` and `DecimalInjective` state its properties |
| Strings.FirstIn | bin/hff.py:340 | the position of the first character of a set: none of them occurs before it |
| Strings.Runs | bin/hff.py:340 | splitting on a set of separators gives exactly `SplitByChar`: the maximal runs of non-separators, in order, each non-empty and without a separator |
| Strings.Words | bin/hff.py:340 | `split()` is `SplitByChar` over the whitespace characters: the maximal whitespace-free runs in order, each non-empty |
| Strings.SplitByChar | bin/hff.py:340 | definition of `split` one character at a time: a separator is in no piece, and any other character joins the piece after it when the next character is not a separator; a string starting with a non-separator has a piece |
| Strings.SplitByCharExample | bin/hff.py:340 | `" ab  c "` splits into `["ab", "c"]`: no empty piece for leading, trailing or doubled separators |
| Strings.SplitSkip | bin/hff.py:340 | leading separators do not change the split |
| Strings.SplitRun | bin/hff.py:340 | a maximal run at the front of the string is the first piece of the split, followed by the split of the rest |
| Strings.Join | bin/hff.py:340 | definition of `sep.join(parts)`; `SpacelessRejoin` states what it gives on the split of a slug |
| Strings.SpacelessRejoin | bin/hff.py:340 | `"_".join(s.split())` is `s` when `s` has no whitespace |
| Strings.RunsOfRunFree | bin/hff.py:340 | a non-empty string without a separator splits into just itself, and "" into nothing |
| Ordering.BelowTransitive | bin/hff.py:155 | Python's `<` on strings is transitive |
| Ordering.BelowTotal | bin/hff.py:155 | any two different strings are ordered one way or the other |
| Ordering.BelowIrreflexive | bin/hff.py:155 | no string is below itself |
| Ordering.Below | bin/hff.py:155 | definition of Python's `<` on `str` (also bin/hff.py:165, :395); `BelowTransitive`, `BelowTotal` and `BelowIrreflexive` show it is a strict total order |
| Ordering.First | bin/hff.py:155 | picks the element of a non-empty set that comes before every other one |
| Ordering.Sorted | bin/hff.py:155 | `sorted(set)` returns every element once, each strictly before the next, ascending or with `reverse=True` descending |
| Ordering.SortedUnique | bin/hff.py:155 | a strictly sorted listing of a set is unique, so `sorted` has one answer |
| RepoPaths.DropDotSlash | bin/hff.py:38-39 | the loop removes exactly the leading "./" pairs: what it drops is made of "./" pairs only, the rest is a suffix that does not start with "./", and a path without a leading "./" comes back unchanged |
| RepoPaths.Normalize | bin/hff.py:34-40 | definition of `normalize_path`; `NormalizeShape`, `NormalizeFixpoint` and `NormalizePath` state its properties |
| RepoPaths.IsRoot | bin/hff.py:43-44 | definition of `is_root`; `ParentDir` states that the parent is "" exactly when it holds |
| RepoPaths.NormalizeShape | bin/hff.py:34-40 | a normalised path neither starts nor ends with '/' and has no '\'; so `endswith("/")` is false on it |
| RepoPaths.NormalizePath | bin/hff.py:34-40 | the loop version computes `Normalize`, and its result has no boundary '/' and no '\' |
| RepoPaths.CleanIsFixed | bin/hff.py:34-40 | a clean path (no boundary whitespace or '/', no '\', no leading "./") normalises to itself |
| RepoPaths.UncleanShrinks | bin/hff.py:34-40 | a path with no boundary '/' and no '\' that is not clean loses at least one character |
| RepoPaths.OnlyDotSlashLeft | bin/hff.py:34-40 | a path that `strip()` leaves alone, with no boundary '/' and no '\', can be unclean only by starting with "./" |
| RepoPaths.NormalizeFixpoint | bin/hff.py:34-40 | `normalize_path(p) == p` exactly when `p` is clean |
| RepoPaths.NormalizeNotIdempotent | bin/hff.py:34-40 | for a path `t` with no boundary '/', no trailing whitespace and no '\', ".//./" + `t` normalises to "./" + `t`, which normalises to something else |
| RepoPaths.DotSlashStep | bin/hff.py:34-40 | a path "./" + "/" + `u` without boundary whitespace or '\' normalises to `u` when `u` has no boundary '/': only one "./" is dropped before the final strip of '/' |
| RepoPaths.SlashThen | bin/hff.py:40 | stripping '/' from "/" + `u` gives `u` when `u` has no boundary '/' |
| RepoPaths.KeepsEnds | bin/hff.py:35-36 | the left and the right strip leave a string alone when neither end character is in the set |
| RepoPaths.ParentDir | bin/hff.py:43-51 | `parent_dir` is "" exactly when `is_root`; otherwise it is the proper prefix of the normalised path that ends before its last '/' |
| RepoPaths.BaseName | bin/hff.py:235 | `Path(p).name` is the whole last segment: it has no '/', ends the path, and is either the whole path or preceded by a '/' |
| Commits.ApplyConcat | bin/hff.py:241-246 | committing `ops1 + ops2` has the effect of `ops1` followed by `ops2` |
| Commits.DeletesConcat | bin/hff.py:213 | the deletions of two concatenated target lists are those of the first followed by those of the second |
| Commits.Deletes | bin/hff.py:213 | definition of the list of `CommitOperationDelete`s (also bin/hff.py:484); `ApplyDeletes`, `DeletesConcat` and `DeletesInOrder` state what it gives |
| Commits.ApplyDeletes | bin/hff.py:213 | committing one deletion per target removes exactly the targets |
| Commits.CopyThenDelete | bin/hff.py:245-246 | a copy of `src` to `dst` followed by deleting `src` adds `dst` and removes `src` |
| VirtualDirs.MarkerOpsEffect | bin/hff.py:57-64 | for a normalised directory, the ops add its `.gitkeep` (nothing for "") and asking again yields no ops |
| VirtualDirs.DirOpsEffect | bin/hff.py:54-64 | the ops of `ensure_dir_ops` add the `.gitkeep` of the normalised directory and nothing else, and are idempotent |
| VirtualDirs.MarkerOps | bin/hff.py:57-64 | definition of the ops for a normalised directory; `MarkerOpsEffect` states their effect |
| VirtualDirs.DirOps | bin/hff.py:54-64 | definition of the ops `ensure_dir_ops` returns; `DirOpsEffect` and `EnsureDirOps` state them |
| VirtualDirs.DupName | bin/hff.py:72 | definition of the candidate `f"{dest}__dup{i}"`; `DupNameInjective` and `UniqueDest` state its use |
| VirtualDirs.KeepFile | bin/hff.py:60 | definition of `f"{d}/.gitkeep"`; `MarkerOpsEffect` and `DirOpsEffect` state that the ops add exactly this path |
| VirtualDirs.PathSet.constructor | bin/hff.py:172 | the shared set starts as `set(files)` |
| VirtualDirs.EnsureDirOps | bin/hff.py:54-64 | returns no op for an empty directory or a present marker, otherwise exactly one `Add(d/.gitkeep, b"")`, and the caller's set becomes the set after those ops |
| VirtualDirs.DupNameInjective | bin/hff.py:72 | different counters give different `__dupN` names |
| VirtualDirs.FirstFreeUnique | bin/hff.py:67-75 | at most one name is `dest` when free, or else the `__dupN` with the smallest free N >= 1 |
| VirtualDirs.UniqueDest | bin/hff.py:67-75 | `unique_dest` returns that first free name, which is never in `existing`; the loop terminates |
| FsCommands.RootIsTopDirectory | bin/hff.py:157-166 | the root listing is the listing under the empty prefix, plus "" when the list holds an empty path |
| FsCommands.Entry | bin/hff.py:146-154 | definition of how a remainder is shown (also bin/hff.py:161-164); `ListedFile` and `DirectoryEntry` state what it gives |
| FsCommands.Children | bin/hff.py:140-154 | definition of the entries under a prefix; `ChildShape` states the shape of every entry, and `ListedFile`, `ListedDirectoryHasFile` and `FileMakesDirectoryListed` say which names and directories are listed |
| FsCommands.RootChildren | bin/hff.py:159-164 | definition of the root entries; `RootIsTopDirectory` relates them to the prefixed listing |
| FsCommands.ChildrenSnoc | bin/hff.py:145-154 | one more path adds at most its own entry to a listing |
| FsCommands.ChildrenOfMatches | bin/hff.py:140 | paths outside the prefix add no entry, so the filtered list gives the same children |
| FsCommands.ChildShape | bin/hff.py:145-154 | every entry is non-empty, and is either a name without '/' or a segment without '/' followed by one '/' (an empty segment only for a path with "//" right after the prefix) |
| FsCommands.ListedFile | bin/hff.py:145-154 | an entry without '/' is listed exactly when it names a non-empty file directly under the prefix |
| FsCommands.DirectoryEntry | bin/hff.py:149-152 | an entry `x/` comes from a remainder that starts with `x/`, where `x` has no '/' |
| FsCommands.ListedDirectoryHasFile | bin/hff.py:145-154 | an entry `x/` means some file lies under `prefix + x + "/"` |
| FsCommands.DirectoryUnder | bin/hff.py:146-152 | a file whose remainder shows as `x/` lies under `prefix + x + "/"` |
| FsCommands.FileMakesDirectoryListed | bin/hff.py:145-154 | every file under `prefix + x + "/"` (with `x` free of '/') makes `x/` listed |
| FsCommands.CollectChildren | bin/hff.py:144-154 | the loop over the paths under the prefix collects exactly their children |
| FsCommands.CollectRoot | bin/hff.py:159-164 | the loop over all paths collects exactly the root entries |
| FsCommands.ListDir | bin/hff.py:137-166 | "(empty)" exactly when a non-root path has no file below it; otherwise the entries, strictly sorted, are exactly the root or prefixed children |
| FsCommands.Ls | bin/hff.py:131-166 | `ls` prints "(empty)" or the sorted, de-duplicated child entries of the normalised path |
| FsCommands.MakeDir | bin/hff.py:174-190 | for a normalised path: exit 2 on "", "exists" exactly when the marker is present or the path normalises again to "", otherwise a commit adding only the marker |
| FsCommands.Mkdir | bin/hff.py:169-190 | `mkdir` exits 2 exactly on an empty path, never exits 1, and otherwise commits "mkdir d" adding only `d/.gitkeep` or reports it as existing |
| FsCommands.RmPathOutcome | bin/hff.py:199-220 | for a path not ending in '/', exit 2 on "", exit 1 when unlisted, otherwise one commit deleting exactly that path |
| FsCommands.RmPath | bin/hff.py:199-220 | definition of `cmd_rm` on a normalised path; its outcome is stated by `RmPathOutcome` |
| FsCommands.Rm | bin/hff.py:193-220 | definition of `cmd_rm`; its outcome is stated by `RmOutcome` |
| FsCommands.RmOutcome | bin/hff.py:193-220 | `rm` exits 2 on an empty path and 1 on an unlisted one; otherwise it commits "rm p", deleting only `p`; the prefix delete never happens |
| FsCommands.Move | bin/hff.py:228-254 | for normalised paths: exit 2 exactly when either is "", exit 1 exactly when `src` is unlisted, a commit exactly otherwise; the commit is the marker ops of the destination's parent, `Copy(src, dst2)` and `Delete(src)`, where `dst2` is the first free name in the set grown by the markers |
| FsCommands.Mv | bin/hff.py:223-254 | `mv` gives exit 2, exit 1, or (exactly when both normalised paths are non-empty and the source is listed) the commit above, never "no change"; its effect adds the markers and `dst2` and removes `src` |
| FsCommands.Put | bin/hff.py:257-295 | `put` exits 1 without the local file, 2 on an empty destination, and uploads exactly otherwise: it ensures the parent directory's marker under "mkdir parent" and uploads to the normalised destination with the given message or "put dst" |
| Snapshots.Sanitize | bin/hff.py:339 | every letter, digit or one of "._-" is kept in place and every other character becomes '_'; the length is unchanged |
| Snapshots.SanitizedPunct | bin/hff.py:339 | the sanitised name is all "._-" exactly when the name has no letter or digit |
| Snapshots.SanitizeKeeps | bin/hff.py:339 | sanitising a name of letters, digits and "._-" changes nothing |
| Snapshots.IsAlnum | bin/hff.py:339 | definition of `ch.isalnum()` on ASCII letters and digits; `Sanitize` states it keeps these characters, and `SlugFallback` that the slug is "snapshot" exactly when the name has none |
| Snapshots.Slug | bin/hff.py:338-343 | the slug is non-empty, at most 120 characters, only letters, digits and "._-", and does not start with one of "._-" |
| Snapshots.SlugSteps | bin/hff.py:340-341 | the whitespace join leaves a sanitised slug unchanged, and cutting it to 120 keeps its first character |
| Snapshots.SlugFallback | bin/hff.py:339-341 | nothing survives the strip exactly when the name has no letter or digit, and then the slug is "snapshot" |
| Snapshots.NothingLeft | bin/hff.py:341 | when nothing survives the strip, the slug is "snapshot" |
| Snapshots.SlugOfSlug | bin/hff.py:338-341 | a name of 1 to 120 letters, digits and "._-" that neither starts nor ends with one of "._-" is its own slug (the end condition is needed: see `CutSlugNotFixed`) |
| Snapshots.SlugEndingInPunctIsCut | bin/hff.py:339-341 | a slug ends with one of "._-" only when the stripped, sanitised name was longer than 120 characters and the cut left that character last; the slug is then exactly 120 characters long |
| Snapshots.CutSlugNotFixed | bin/hff.py:338-341 | a slug that ends with one of "._-" is not its own slug: `snap_id_from_name` is not idempotent on its own slugs |
| Snapshots.PunctEndNotFixed | bin/hff.py:339-341 | a name of at most 120 letters, digits and "._-" that does not start with one of "._-" but ends with one is not its own slug |
| Snapshots.LongSlug | bin/hff.py:339-341 | a name of more than 120 letters, digits and "._-" with no "._-" at either end is cut to its first 120 characters |
| Snapshots.CutTo | bin/hff.py:339-341 | any 119 letters or digits followed by "_b" slug to those 119 characters and "_" |
| Snapshots.UnderscoreEndNotFixed | bin/hff.py:339-341 | any 119 letters or digits followed by "_" are not their own slug |
| Snapshots.CutExample | bin/hff.py:338-341 | 119 letters followed by "_b" slug to the 119 letters and "_", whose slug is different |
| Snapshots.StrippedSlug | bin/hff.py:339-341 | whenever something survives the strip, the slug is its first 120 characters (`slug[:120]`) |
| Snapshots.SnapId | bin/hff.py:338-343 | the id is the time stamp, "__", then `Slug(name)`: the part after "__" is non-empty, at most 120 characters, only letters, digits and "._-", and does not start with one of "._-"; the id has no '/' when the time stamp has none |
| Snapshots.IdParts | bin/hff.py:343 | a time stamp, "__" and a valid slug form an id that starts with the stamp and "__", ends with exactly that slug, and has a '/' only when the stamp has one |
| Snapshots.SnapshotPrefix | bin/hff.py:394 | the snapshot prefix ends with '/' |
| Snapshots.LastSlashBeforeSuffix | bin/hff.py:396 | in a path with a '/', ending in a suffix without one, the last '/' comes before the suffix |
| Snapshots.IsManifest | bin/hff.py:396 | definition of the filter `f.startswith(pref) and f.endswith(".manifest.json")`; `ManifestName` and `ManifestIds` state what its matches give |
| Snapshots.ManifestId | bin/hff.py:396 | definition of `Path(f).name[:-len(".manifest.json")]`; `ManifestName` and `ManifestIdOf` state what it gives |
| Snapshots.IdsUnder | bin/hff.py:395-396 | definition of the set of ids below a prefix; `ManifestIds` characterises it |
| Snapshots.NameBeforeSuffix | bin/hff.py:396 | the file name with a suffix dropped has no '/', and the path ends with '/', that name and the suffix |
| Snapshots.SlashNameSuffix | bin/hff.py:396 | cutting a path at its last '/' and before its suffix gives a name without '/' that the path ends with |
| Snapshots.ManifestName | bin/hff.py:396 | the id of a manifest below the prefix has no '/', and the path ends with "/" + id + ".manifest.json" |
| Snapshots.ManifestIdOf | bin/hff.py:396 | a path ending in "/" + id + ".manifest.json", with no '/' in id, yields that id |
| Snapshots.ManifestIds | bin/hff.py:395-398 | the ids found are exactly the names of manifests anywhere below the prefix |
| Snapshots.SnapshotList | bin/hff.py:390-400 | `snapshot list` prints those ids once each, in descending order |
| Snapshots.ListIds | bin/hff.py:395-400 | for a prefix ending in '/', the ids are strictly descending and are exactly the names of the manifests below it |
| Snapshots.ManifestPath | bin/hff.py:367-386 | the manifest uploaded into the snapshot directory lies below the prefix and ends with "/" + id + ".manifest.json" |
| Snapshots.CreatedSnapshotListed | bin/hff.py:367-398 | once the manifest of a snapshot created with a name and a time stamp is in the repo, `snapshot list` shows its id |
| Snapshots.DeletesInOrder | bin/hff.py:485 | the i-th deletion deletes the i-th target |
| Snapshots.SnapshotFiles | bin/hff.py:472 | definition of the files `f.startswith(pref + args.id + ".")`; `DestroyInOutcome` states that the commit removes exactly these |
| Snapshots.DestroyInOutcome | bin/hff.py:468-491 | for a prefix: exit 2 without an id; exit 1 when no file starts with `prefix + id + "."` or the confirmation is not "DELETE"; otherwise a commit that deletes exactly those files |
| Snapshots.DestroyIn | bin/hff.py:468-491 | definition of `cmd_snapshot_destroy` for a prefix; its outcome is stated by `DestroyInOutcome` |
| Snapshots.Destroy | bin/hff.py:463-491 | definition of `cmd_snapshot_destroy`; its outcome is stated by `DestroyOutcome` |
| Snapshots.DestroyOutcome | bin/hff.py:463-491 | `snapshot destroy` behaves that way for the snapshot directory's prefix, with the message "destroy snapshot id" |
| Snapshots.DestroyFollowsList | bin/hff.py:472 | the deletions follow the file list's order: cut the list anywhere, and the earlier part's deletions come first |
| Snapshots.DestroyListed | bin/hff.py:471-491 | with `--yes`, destroying a snapshot whose manifest sits in the snapshot directory commits and removes that manifest |

## Left out

- Hub access (`list_repo_files`, `create_commit`, `upload_file`, `hf_hub_download`) is not modelled. The file list is a parameter, and a commit is the returned `Plan`. `Apply` gives the commit's effect on the set of paths; it does not model file contents.
- Version-dependent keyword probing with `inspect.signature` in `_make_copy_op`, `_make_delete_op` and `_make_add_op` is not modelled. The three constructors of `Op` replace it.
- `need_token`, `HF_TOKEN` and the `HF_HUB_ENABLE_HF_TRANSFER` toggling are left out; they are environment variables.
- `cmd_get`, `cmd_snapshot_create`, `cmd_snapshot_show` and `cmd_snapshot_get` are left out, because they are local file and `tar`/`huggingface-cli` subprocess work. The naming step of `snapshot create` is in `SnapId`, and `CreatedSnapshotListed` relates the manifest it uploads to `snapshot list`.
- Printing is not modelled. `Ls` returns the lines it would print, and the commands return what they decide instead of printing "ok", "exists" or the new name.
- `Put` takes the result of the local `exists()`/`is_file()` checks and the local file's name as parameters. The upload's contents are not modelled.
- `Destroy` receives the line that `input()` reads as a parameter.
- `SnapId` receives the time stamp `time.strftime(...)` as a parameter.
- `argparse` wiring (`build_parser`, `main`) and `die`'s message text are left out. Only the exit code is kept.
- Snapshots.IsAlnum: `str.isalnum` is modelled for ASCII letters and digits only. Other Unicode letters and digits become '_' in the model.
- `str.isspace` is modelled by the fixed set of characters Python treats as whitespace.
- BaseName: `pathlib` drops a trailing "." component (`Path("a/.").name` is "a") and a trailing '/', while the model gives "." and "". This only matters in the never-taken "dst ends with /" branch of `mv` at `bin/hff.py:234-235`; manifest paths end with ".manifest.json".

=== FILE: commits.dfy ===
/** Commit operations and the plans the commands compute. The three constructors of `Op`
    stand for huggingface_hub's CommitOperationAdd, CommitOperationCopy and
    CommitOperationDelete. `Apply` is a reference semantics for one hub commit over the
    set of repo paths; it is what the effect lemmas of the commands are stated against. */
module Commits {

  newtype byte = x: int | 0 <= x < 256

  datatype Op =
    | Add(path: string, content: seq<byte>)
    | Copy(src: string, dst: string)
    | Delete(path: string)

  /** What a command decides: exit with an error code (after `die`), leave the repo as it
      is, or create one commit with these operations and this message. */
  datatype Plan =
    | Exit(code: nat)
    | Unchanged
    | Commit(ops: seq<Op>, message: string)

  /** `set(files)` */
  function FileSet(files: seq<string>): set<string> {
    set f | f in files
  }

  function ApplyOp(files: set<string>, op: Op): set<string> {
    match op
    case Add(p, _) => files + {p}
    case Copy(_, d) => files + {d}
    case Delete(p) => files - {p}
  }

  /** The repo's paths after the operations of one commit, in order. */
  function Apply(files: set<string>, ops: seq<Op>): set<string>
    decreases |ops|
  {
    if ops == [] then files else Apply(ApplyOp(files, ops[0]), ops[1..])
  }

  /** A commit of `a + b` has the effect of `a` followed by `b`. */
  lemma {:induction false} ApplyConcat(files: set<string>, a: seq<Op>, b: seq<Op>)
    ensures Apply(files, a + b) == Apply(Apply(files, a), b)
    decreases |a|
  {
    if a == [] {
      assert a + b == b;
    } else {
      assert (a + b)[0] == a[0] && (a + b)[1..] == a[1..] + b;
      ApplyConcat(ApplyOp(files, a[0]), a[1..], b);
    }
  }

  /** `[CommitOperationDelete(t) for t in targets]` */
  function Deletes(targets: seq<string>): seq<Op> {
    if targets == [] then [] else [Delete(targets[0])] + Deletes(targets[1..])
  }

  /** The deletions of `a + b` are those of `a` followed by those of `b`. */
  lemma {:induction false} DeletesConcat(a: seq<string>, b: seq<string>)
    ensures Deletes(a + b) == Deletes(a) + Deletes(b)
    decreases |a|
  {
    if a == [] {
      assert a + b == b;
    } else {
      assert (a + b)[0] == a[0] && (a + b)[1..] == a[1..] + b;
      DeletesConcat(a[1..], b);
    }
  }

  /** Deleting the targets removes exactly the targets. */
  lemma {:induction false} ApplyDeletes(files: set<string>, targets: seq<string>)
    ensures Apply(files, Deletes(targets)) == files - FileSet(targets)
    decreases |targets|
  {
    if targets != [] {
      var ops := Deletes(targets);
      assert ops[0] == Delete(targets[0]) && ops[1..] == Deletes(targets[1..]);
      ApplyDeletes(files - {targets[0]}, targets[1..]);
      assert FileSet(targets) == {targets[0]} + FileSet(targets[1..]);
    }
  }

  /** Copying `src` to `dst` and then deleting `src`, after some operations `a`: the
      paths after `a`, with `dst` and without `src`. */
  lemma CopyThenDelete(files: set<string>, a: seq<Op>, src: string, dst: string)
    ensures Apply(files, a + [Copy(src, dst), Delete(src)]) == (Apply(files, a) + {dst}) - {src}
  {
    var tail := [Copy(src, dst), Delete(src)];
    ApplyConcat(files, a, tail);
    var mid := Apply(files, a);
    assert tail[1..] == [Delete(src)];
    assert [Delete(src)][1..] == [];
    assert Apply(mid, tail) == Apply(mid + {dst}, [Delete(src)]);
    assert Apply(mid + {dst}, [Delete(src)]) == Apply((mid + {dst}) - {src}, []);
  }
}

=== FILE: fs_commands.dfy ===
/** The file-system commands of bin/hff.py (`ls`, `mkdir`, `rm`, `mv`, `put`), stripped of
    the hub calls: each takes the repo's file list (what `list_repo_files` returned) and its
    arguments, and computes the listing or the commit it would make. */
module FsCommands {
  import opened Strings
  import opened Ordering
  import opened RepoPaths
  import opened Commits
  import opened VirtualDirs

  // ---------------- ls ----------------

  /** What `cmd_ls` prints: "(empty)", or the child entries one per line. */
  datatype Listing = EmptyDir | Entries(names: seq<string>)

  /** How `cmd_ls` shows the part `rest` of a path below the listed directory: its first
      segment followed by '/' when it goes deeper, the name itself otherwise. */
  function Entry(rest: string): string {
    if '/' in rest then SplitFirst(rest, '/') + "/" else rest
  }

  /** The entries of the root listing. */
  function RootChildren(files: seq<string>): set<string> {
    set f | f in files :: Entry(f)
  }

  /** The entries of the listing of the directory whose paths start with `prefix`. */
  function Children(files: seq<string>, prefix: string): set<string> {
    set f | f in files && StartsWith(f, prefix) && |f| > |prefix| :: Entry(f[|prefix|..])
  }

  lemma ChildrenSnoc(files: seq<string>, f: string, prefix: string)
    ensures Children(files + [f], prefix)
      == Children(files, prefix) + (if StartsWith(f, prefix) && |f| > |prefix| then {Entry(f[|prefix|..])} else {})
  {
    var xs := files + [f];
    forall x | x in xs ensures x in files || x == f { }
  }

  lemma RootChildrenSnoc(files: seq<string>, f: string)
    ensures RootChildren(files + [f]) == RootChildren(files) + {Entry(f)}
  {
    var xs := files + [f];
    forall x | x in xs ensures x in files || x == f { }
  }

  /** The root listing is the listing of the directory with prefix "", plus the entry ""
      when the file list holds an empty name. */
  lemma RootIsTopDirectory(files: seq<string>)
    ensures RootChildren(files) == Children(files, []) + (if [] in files then {[]} else {})
  {
    forall x | x in RootChildren(files)
      ensures x in Children(files, []) || (x == [] && [] in files)
    {
      var f :| f in files && Entry(f) == x;
      if f != [] {
        assert f[0..] == f;
      }
    }
    forall x | x in Children(files, [])
      ensures x in RootChildren(files)
    {
      var f :| f in files && |f| > 0 && Entry(f[0..]) == x;
      assert f[0..] == f;
    }
  }

  /** Every entry of a listing is non-empty and is either a name without '/' or a segment
      without '/' followed by one '/'. The segment is empty only for a path with "//" right
      after the prefix. */
  lemma ChildShape(files: seq<string>, prefix: string, e: string)
    requires e in Children(files, prefix)
    ensures e != []
    ensures '/' !in e || (e[|e| - 1] == '/' && '/' !in e[..|e| - 1])
  {
    var f :| f in files && StartsWith(f, prefix) && |f| > |prefix| && Entry(f[|prefix|..]) == e;
    var rest := f[|prefix|..];
    if '/' in rest {
      var seg := SplitFirst(rest, '/');
      assert e == seg + "/";
      assert e[..|e| - 1] == seg;
    }
  }

  /** An entry without '/' is exactly the name of a file directly in the directory. */
  lemma ListedFile(files: seq<string>, prefix: string, x: string)
    requires '/' !in x
    ensures x in Children(files, prefix) <==> x != [] && prefix + x in files
  {
    if x in Children(files, prefix) {
      var f :| f in files && StartsWith(f, prefix) && |f| > |prefix| && Entry(f[|prefix|..]) == x;
      var rest := f[|prefix|..];
      assert f == prefix + rest;
    }
    if x != [] && prefix + x in files {
      var f := prefix + x;
      assert StartsWith(f, prefix) && f[|prefix|..] == x;
    }
  }

  /** An entry ending in '/' names the first segment of a deeper path. */
  lemma DirectoryEntry(rest: string, x: string)
    requires Entry(rest) == x + "/"
    ensures '/' !in x && StartsWith(rest, x + "/")
  {
    assert (x + "/")[|x|] == '/';
    var seg := SplitFirst(rest, '/');
    assert seg + "/" == x + "/";
    assert seg == (seg + "/")[..|seg|];
  }

  /** An entry `x + "/"` comes only from a segment `x` (without '/') under which some
      file lies. */
  lemma ListedDirectoryHasFile(files: seq<string>, prefix: string, x: string)
    requires x + "/" in Children(files, prefix)
    ensures '/' !in x && exists f :: f in files && StartsWith(f, prefix + x + "/")
  {
    var f :| f in files && StartsWith(f, prefix) && |f| > |prefix| && Entry(f[|prefix|..]) == x + "/";
    DirectoryUnder(f, prefix, x);
  }

  /** A file whose part below `prefix` shows as the entry `x + "/"` lies under
      `prefix + x + "/"`. */
  lemma DirectoryUnder(f: string, prefix: string, x: string)
    requires StartsWith(f, prefix) && |f| > |prefix| && Entry(f[|prefix|..]) == x + "/"
    ensures '/' !in x && StartsWith(f, prefix + x + "/")
  {
    DirectoryEntry(f[|prefix|..], x);
    PrefixThenPrefix(f, prefix, x + "/");
  }

  lemma PrefixThenPrefix(f: string, a: string, b: string)
    requires StartsWith(f, a) && StartsWith(f[|a|..], b)
    ensures StartsWith(f, a + b)
  {
    assert f[..|a + b|] == f[..|a|] + f[|a|..][..|b|];
  }

  /** Every segment `x` (without '/') under which some file lies is listed as `x + "/"`. */
  lemma FileMakesDirectoryListed(files: seq<string>, prefix: string, x: string, f: string)
    requires '/' !in x && f in files && StartsWith(f, prefix + x + "/")
    ensures x + "/" in Children(files, prefix)
  {
    assert StartsWith(f, prefix) by { assert f[..|prefix|] == (prefix + x + "/")[..|prefix|]; }
    var rest := f[|prefix|..];
    assert rest[..|x| + 1] == x + "/" by {
      assert f[..|prefix + x + "/"|] == prefix + x + "/";
    }
    assert rest[|x|] == '/';
    assert SplitFirst(rest, '/') == x by { assert rest[..|x|] == x; }
  }

  /** The paths that do not start with `prefix` add no entry to its listing. */
  lemma ChildrenOfMatches(files: seq<string>, prefix: string)
    ensures Children(WithPrefix(files, prefix), prefix) == Children(files, prefix)
  {
  }

  /** The loop of `cmd_ls` over the paths under `prefix`, collecting their entries. */
  method CollectChildren(kids: seq<string>, prefix: string) returns (children: set<string>)
    requires forall f :: f in kids ==> StartsWith(f, prefix)
    ensures children == Children(kids, prefix)
  {
    children := {};
    for i := 0 to |kids|
      invariant children == Children(kids[..i], prefix)
    {
      var f := kids[i];
      assert kids[..i + 1] == kids[..i] + [f];
      assert f in kids;
      ChildrenSnoc(kids[..i], f, prefix);
      var rest := f[|prefix|..];
      if rest != [] {
        var first := SplitFirst(rest, '/');
        if '/' in rest {
          children := children + {first + "/"};
        } else {
          children := children + {first};
        }
      }
    }
    assert kids[..|kids|] == kids;
  }

  /** The loop of `cmd_ls` at the root, collecting the entries of every path. */
  method CollectRoot(files: seq<string>) returns (children: set<string>)
    ensures children == RootChildren(files)
  {
    children := {};
    for i := 0 to |files|
      invariant children == RootChildren(files[..i])
    {
      var f := files[i];
      assert files[..i + 1] == files[..i] + [f];
      RootChildrenSnoc(files[..i], f);
      if '/' in f {
        children := children + {SplitFirst(f, '/') + "/"};
      } else {
        children := children + {f};
      }
    }
    assert files[..|files|] == files;
  }

  /** The listing of the already normalised path `path`: lines 137-166 of `cmd_ls`. */
  method ListDir(files: seq<string>, path: string) returns (r: Listing)
    requires NoBoundarySlash(path)
    ensures r.EmptyDir? <==> path != [] && forall f :: f in files ==> !StartsWith(f, path + "/")
    ensures r.Entries? ==> StrictlySorted(r.names, false)
    ensures r.Entries? ==>
      forall x :: x in r.names <==> x in (if path == [] then RootChildren(files) else Children(files, path + "/"))
  {
    var children: set<string>;
    if path != [] {
      var prefix := RStrip(path, {'/'}) + "/";
      assert prefix == path + "/";
      var kids := WithPrefix(files, prefix);
      if kids == [] {
        return EmptyDir;
      }
      assert kids[0] in kids;
      children := CollectChildren(kids, prefix);
      ChildrenOfMatches(files, prefix);
    } else {
      children := CollectRoot(files);
    }
    var names := Sorted(children, false);
    return Entries(names);
  }

  /** `cmd_ls`: "(empty)" when a non-root directory has no file under it; otherwise its
      entries sorted and without duplicates. */
  method Ls(files: seq<string>, pathArg: string) returns (r: Listing)
    ensures r.EmptyDir? <==>
      Normalize(pathArg) != [] && forall f :: f in files ==> !StartsWith(f, Normalize(pathArg) + "/")
    ensures r.Entries? ==> StrictlySorted(r.names, false)
    ensures r.Entries? ==>
      var p := Normalize(pathArg);
      forall x :: x in r.names <==> x in (if p == [] then RootChildren(files) else Children(files, p + "/"))
  {
    var path := NormalizePath(pathArg);
    r := ListDir(files, path);
  }

  // ---------------- mkdir ----------------

  /** What `cmd_mkdir` does with the normalised path `d`. */
  method MakeDir(files: seq<string>, d: string) returns (r: Plan)
    ensures r == Exit(2) <==> d == []
    ensures r == Unchanged <==> d != [] && (Normalize(d) == [] || KeepFile(d) in files)
    ensures r.Exit? ==> r == Exit(2)
    ensures r.Commit? ==>
      && r.ops == [Add(KeepFile(d), [])]
      && r.message == "mkdir " + d
      && Apply(FileSet(files), r.ops) == FileSet(files) + {KeepFile(d)}
  {
    var existing := new PathSet(files);
    if d == [] {
      return Exit(2);
    }
    var ops := EnsureDirOps(existing, d);
    DirOpsEffect(FileSet(files), d);
    if ops == [] {
      return Unchanged;
    }
    return Commit(ops, "mkdir " + d);
  }

  /** `cmd_mkdir`: exit 2 on an empty path; "exists" (no commit) when `ensure_dir_ops`
      finds nothing to do; otherwise one commit that adds the directory's marker and
      nothing else. The already normalised path is normalised once more inside
      `ensure_dir_ops`, so a path such as "/ /", which normalises to " ", is reported as
      existing. */
  method Mkdir(files: seq<string>, pathArg: string) returns (r: Plan)
    ensures r == Exit(2) <==> Normalize(pathArg) == []
    ensures r == Unchanged <==>
      var d := Normalize(pathArg);
      d != [] && (Normalize(d) == [] || KeepFile(d) in files)
    ensures r.Exit? ==> r == Exit(2)
    ensures r.Commit? ==>
      var d := Normalize(pathArg);
      && r.ops == [Add(KeepFile(d), [])]
      && r.message == "mkdir " + d
      && Apply(FileSet(files), r.ops) == FileSet(files) + {KeepFile(d)}
  {
    var d := NormalizePath(pathArg);
    r := MakeDir(files, d);
  }

  // ---------------- rm ----------------

  /** What `cmd_rm` does with the normalised path `p`, as written: the prefix-delete
      branch for a path ending in '/' is kept, although a normalised path never ends in '/'. */
  function RmPath(files: seq<string>, p: string): Plan {
    if p == [] then Exit(2)
    else if EndsWith(p, "/") then
      var targets := WithPrefix(files, p);
      if targets == [] then Exit(1) else Commit(Deletes(targets), "rm " + p)
    else if p !in files then Exit(1)
    else Commit(Deletes([p]), "rm " + p)
  }

  /** `cmd_rm` */
  function Rm(files: seq<string>, pathArg: string): Plan {
    RmPath(files, Normalize(pathArg))
  }

  /** On a path without a trailing '/', `rm` deletes exactly that file if it is listed. */
  lemma RmPathOutcome(files: seq<string>, p: string)
    requires !EndsWith(p, "/")
    ensures var r := RmPath(files, p);
      && (r == Exit(2) <==> p == [])
      && (r == Exit(1) <==> p != [] && p !in files)
      && (r.Commit? <==> p != [] && p in files)
      && (r.Commit? ==> r.ops == [Delete(p)] && Apply(FileSet(files), r.ops) == FileSet(files) - {p})
  {
    if p != [] && p in files {
      ApplyDeletes(FileSet(files), [p]);
      assert FileSet([p]) == {p};
    }
  }

  /** What `cmd_rm` does on every input: exit 2 on an empty path, exit 1 when the path is
      not a listed file, otherwise one commit deleting exactly that file and titled
      "rm <path>". The prefix delete never happens. */
  lemma RmOutcome(files: seq<string>, pathArg: string)
    ensures var p, r := Normalize(pathArg), Rm(files, pathArg);
      && (r == Exit(2) <==> p == [])
      && (r == Exit(1) <==> p != [] && p !in files)
      && (r.Commit? <==> p != [] && p in files)
      && (r.Commit? ==> r.ops == [Delete(p)] && r.message == "rm " + p)
      && (r.Commit? ==> Apply(FileSet(files), r.ops) == FileSet(files) - {p})
  {
    NormalizeShape(pathArg);
    RmPathOutcome(files, Normalize(pathArg));
  }

  // ---------------- mv ----------------

  /** The commit `mv` makes of `src` to `dst` over the listed `files`: the marker of the
      destination's parent directory if missing, a copy to the first name derived from
      `dst` that is free once the marker is added, and the deletion of the source. Its
      effect on the repo's paths follows. */
  ghost predicate MoveCommit(files: seq<string>, src: string, dst: string, dst2: string, ops: seq<Op>, message: string) {
    var marker := DirOps(FileSet(files), ParentDir(dst));
    var grown := Apply(FileSet(files), marker);
    && IsFirstFree(dst, grown, dst2)
    && ops == marker + [Copy(src, dst2), Delete(src)]
    && message == "mv " + src + " -> " + dst2
    && Apply(FileSet(files), ops) == (grown + {dst2}) - {src}
  }

  /** What `cmd_mv` does with the normalised paths `src` and `dst`. The "mv file dir/"
      branch is kept as written; it is never taken. */
  method Move(files: seq<string>, src: string, dst: string) returns (r: Plan)
    requires NoBoundarySlash(dst)
    ensures r == Exit(2) <==> src == [] || dst == []
    ensures r == Exit(1) <==> src != [] && dst != [] && src !in files
    ensures r != Unchanged
    ensures r.Commit? <==> src != [] && dst != [] && src in files
    ensures r.Commit? ==> exists dst2 :: MoveCommit(files, src, dst, dst2, r.ops, r.message)
  {
    var existing := new PathSet(files);
    if src == [] || dst == [] {
      return Exit(2);
    }
    var dst1 := dst;
    if EndsWith(dst1, "/") {
      dst1 := dst1 + BaseName(src);
    }
    if src !in existing.paths {
      return Exit(1);
    }
    var ops := EnsureDirOps(existing, ParentDir(dst1));
    var dst2 := UniqueDest(dst1, existing.paths);
    ghost var marker := ops;
    ops := ops + [Copy(src, dst2), Delete(src)];
    CopyThenDelete(FileSet(files), marker, src, dst2);
    assert marker == DirOps(FileSet(files), ParentDir(dst));
    assert IsFirstFree(dst, Apply(FileSet(files), marker), dst2);
    assert MoveCommit(files, src, dst, dst2, ops, "mv " + src + " -> " + dst2);
    return Commit(ops, "mv " + src + " -> " + dst2);
  }

  /** `cmd_mv`: exit 2 when source or destination normalises to "", exit 1 when the
      source is not listed; otherwise the one commit described by `MoveCommit`. */
  method Mv(files: seq<string>, srcArg: string, dstArg: string) returns (r: Plan)
    ensures r == Exit(2) <==> Normalize(srcArg) == [] || Normalize(dstArg) == []
    ensures r == Exit(1) <==>
      Normalize(srcArg) != [] && Normalize(dstArg) != [] && Normalize(srcArg) !in files
    ensures r != Unchanged
    ensures r.Commit? <==>
      Normalize(srcArg) != [] && Normalize(dstArg) != [] && Normalize(srcArg) in files
    ensures r.Commit? ==> exists dst2 :: MoveCommit(files, Normalize(srcArg), Normalize(dstArg), dst2, r.ops, r.message)
  {
    var src := NormalizePath(srcArg);
    var dst := NormalizePath(dstArg);
    r := Move(files, src, dst);
  }

  // ---------------- put ----------------

  /** What `cmd_put` does once it has the file list: exit, or make the commit that adds
      the parent directory's marker (when `mkdirOps` is not empty) and then upload the
      local file to `dst` with `message`. */
  datatype PutPlan =
    | PutExit(code: nat)
    | Upload(mkdirOps: seq<Op>, mkdirMessage: string, dst: string, message: string)

  /** `cmd_put`, with the local file's existence and name passed in: exit 1 when the local
      file is missing, exit 2 when the destination normalises to ""; otherwise the parent
      directory of the destination is made to exist and the file is uploaded. The
      "dst ends with /" branch is kept as written; it is never taken. */
  method Put(files: seq<string>, localIsFile: bool, localName: string, dstArg: string, message: string)
    returns (r: PutPlan)
    ensures r == PutExit(1) <==> !localIsFile
    ensures r == PutExit(2) <==> localIsFile && Normalize(dstArg) == []
    ensures r.Upload? <==> localIsFile && Normalize(dstArg) != []
    ensures r.Upload? ==>
      var dst := Normalize(dstArg);
      && r.dst == dst
      && r.mkdirOps == DirOps(FileSet(files), ParentDir(dst))
      && r.mkdirMessage == "mkdir " + ParentDir(dst)
      && r.message == (if message != [] then message else "put " + dst)
      && (Normalize(ParentDir(dst)) != [] ==> KeepFile(ParentDir(dst)) in Apply(FileSet(files), r.mkdirOps))
  {
    var existing := new PathSet(files);
    if !localIsFile {
      return PutExit(1);
    }
    var dst := NormalizePath(dstArg);
    if dst == [] {
      return PutExit(2);
    }
    if EndsWith(dst, "/") {
      dst := dst + localName;
    }
    var ops := EnsureDirOps(existing, ParentDir(dst));
    DirOpsEffect(FileSet(files), ParentDir(dst));
    var msg := if message != [] then message else "put " + dst;
    return Upload(ops, "mkdir " + ParentDir(dst), dst, msg);
  }
}

=== FILE: ordering.dfy ===
/** Python's ordering of `str` values (code point by code point, a proper prefix first)
    and `sorted(...)` of a set of strings, ascending or with `reverse=True`. */
module Ordering {

  /** `a < b` on Python strings. */
  predicate Below(a: string, b: string)
    decreases |a|
  {
    if a == [] then b != []
    else if b == [] then false
    else if a[0] != b[0] then a[0] < b[0]
    else Below(a[1..], b[1..])
  }

  lemma {:induction false} BelowIrreflexive(a: string)
    ensures !Below(a, a)
    decreases |a|
  {
    if a != [] {
      BelowIrreflexive(a[1..]);
    }
  }

  lemma {:induction false} BelowTransitive(a: string, b: string, c: string)
    requires Below(a, b) && Below(b, c)
    ensures Below(a, c)
    decreases |a|
  {
    if a != [] && b != [] && c != [] && a[0] == b[0] && b[0] == c[0] {
      BelowTransitive(a[1..], b[1..], c[1..]);
    }
  }

  lemma {:induction false} BelowTotal(a: string, b: string)
    requires a != b
    ensures Below(a, b) || Below(b, a)
    decreases |a|
  {
    if a != [] && b != [] && a[0] == b[0] {
      assert a == [a[0]] + a[1..] && b == [b[0]] + b[1..];
      BelowTotal(a[1..], b[1..]);
    }
  }

  /** The order `sorted` uses: ascending, or descending when `reverse` is set. */
  predicate Before(a: string, b: string, reverse: bool) {
    if reverse then Below(b, a) else Below(a, b)
  }

  lemma BeforeTransitive(a: string, b: string, c: string, reverse: bool)
    requires Before(a, b, reverse) && Before(b, c, reverse)
    ensures Before(a, c, reverse)
  {
    if reverse { BelowTransitive(c, b, a); } else { BelowTransitive(a, b, c); }
  }

  lemma BeforeTotal(a: string, b: string, reverse: bool)
    requires a != b
    ensures Before(a, b, reverse) || Before(b, a, reverse)
  {
    BelowTotal(a, b);
  }

  /** Every element strictly precedes the later ones: sorted and without duplicates. */
  predicate StrictlySorted(s: seq<string>, reverse: bool) {
    forall i, j :: 0 <= i < j < |s| ==> Before(s[i], s[j], reverse)
  }

  /** The element of a non-empty set that comes first in the order. */
  method First(items: set<string>, reverse: bool) returns (m: string)
    requires items != {}
    ensures m in items
    ensures forall y :: y in items && y != m ==> Before(m, y, reverse)
  {
    m :| m in items;
    var todo := items - {m};
    while todo != {}
      invariant todo <= items && m in items && m !in todo
      invariant forall y :: y in items - todo && y != m ==> Before(m, y, reverse)
      decreases |todo|
    {
      var y :| y in todo;
      if Before(y, m, reverse) {
        forall z | z in items - todo && z != y
          ensures Before(y, z, reverse)
        {
          if z != m { BeforeTransitive(y, m, z, reverse); }
        }
        m := y;
      } else {
        BeforeTotal(y, m, reverse);
      }
      todo := todo - {y};
    }
  }

  /** `sorted(items)` or `sorted(items, reverse=True)` of a set of strings. */
  method Sorted(items: set<string>, reverse: bool) returns (out: seq<string>)
    ensures StrictlySorted(out, reverse)
    ensures forall x :: x in out <==> x in items
  {
    out := [];
    var rest := items;
    while rest != {}
      invariant rest <= items
      invariant forall x :: x in out <==> x in items && x !in rest
      invariant StrictlySorted(out, reverse)
      invariant forall i, y :: 0 <= i < |out| && y in rest ==> Before(out[i], y, reverse)
      decreases |rest|
    {
      var m := First(rest, reverse);
      forall i, y | 0 <= i < |out| && y in rest - {m}
        ensures Before(out[i], y, reverse)
      {
        BeforeTransitive(out[i], m, y, reverse);
      }
      out := out + [m];
      rest := rest - {m};
    }
  }

  /** A non-empty listing holds its first element. `SortedUnique` needs this of both listings
      when their first elements differ: each first element is then a member of the other
      listing, which sorts it after that listing's own first element. */
  lemma HeadIsElement(s: seq<string>)
    ensures s != [] ==> s[0] in s
  {
  }

  /** A strictly sorted listing of a set is unique: `Sorted` has only one possible answer. */
  lemma {:induction false} SortedUnique(s: seq<string>, t: seq<string>, reverse: bool)
    requires StrictlySorted(s, reverse) && StrictlySorted(t, reverse)
    requires forall x :: x in s <==> x in t
    ensures s == t
    decreases |s|
  {
    if s != [] && t != [] {
      if s[0] != t[0] {
        assert t[0] in s && s[0] in t;
        var i :| 0 <= i < |s| && s[i] == t[0];
        var j :| 0 <= j < |t| && t[j] == s[0];
        assert Before(s[0], t[0], reverse);
        assert Before(t[0], s[0], reverse);
        BeforeTransitive(s[0], t[0], s[0], reverse);
        BelowIrreflexive(s[0]);
        assert false;
      }
      forall x ensures x in s[1..] <==> x in t[1..] {
        if x in s[1..] {
          var i :| 1 <= i < |s| && s[i] == x;
          assert Before(s[0], x, reverse);
          if x == s[0] { BelowIrreflexive(x); }
          assert x in t && x != t[0];
        }
        if x in t[1..] {
          var j :| 1 <= j < |t| && t[j] == x;
          assert Before(t[0], x, reverse);
          if x == t[0] { BelowIrreflexive(x); }
          assert x in s && x != s[0];
        }
      }
      SortedUnique(s[1..], t[1..], reverse);
    } else {
      HeadIsElement(s);
      HeadIsElement(t);
    }
  }
}

=== FILE: paths.dfy ===
/** Repo-relative path handling of bin/hff.py: `normalize_path`, `is_root`, `parent_dir`,
    and the basename that `pathlib.Path(...).name` gives. */
module RepoPaths {
  import opened Strings

  /** A string made of "./" pairs only. */
  predicate DotSlashes(x: string)
    decreases |x|
  {
    x == [] || (StartsWith(x, "./") && DotSlashes(x[2..]))
  }

  /** The `while p.startswith("./"): p = p[2:]` step: `p` without its leading "./" pairs,
      all of them, and nothing else. */
  function DropDotSlash(p: string): (r: string)
    ensures !StartsWith(r, "./")
    ensures |r| <= |p| && r == p[|p| - |r|..]
    ensures DotSlashes(p[..|p| - |r|])
    ensures !StartsWith(p, "./") ==> r == p
    ensures StartsWith(p, "./") ==> |r| <= |p| - 2
  {
    if StartsWith(p, "./") then
      var r := DropDotSlash(p[2..]);
      assert p[..|p| - |r|][2..] == p[2..][..|p| - 2 - |r|];
      r
    else p
  }

  /** `normalize_path(p)`: strip whitespace, then leading '/', turn '\' into '/',
      drop leading "./" pairs, strip '/' at both ends. */
  function Normalize(p: string): string {
    Strip(DropDotSlash(ReplaceChar(LStrip(Strip(p, Whitespace), {'/'}), '\\', '/')), {'/'})
  }

  predicate NoBoundarySlash(p: string) {
    p == [] || (p[0] != '/' && p[|p| - 1] != '/')
  }

  /** What `normalize_path` guarantees of every result: no '/' at either end and no '\'.
      So every `endswith("/")` test on a normalised path is false. */
  lemma NormalizeShape(p: string)
    ensures NoBoundarySlash(Normalize(p))
    ensures '\\' !in Normalize(p)
    ensures !EndsWith(Normalize(p), "/")
  {
    var c := ReplaceChar(LStrip(Strip(p, Whitespace), {'/'}), '\\', '/');
    NoBackslashAfterReplace(c);
  }

  /** Once backslashes are replaced, neither the "./" loop nor the final strip brings
      one back, and the strip leaves no '/' at either end. */
  lemma NoBackslashAfterReplace(c: string)
    requires '\\' !in c
    ensures var n := Strip(DropDotSlash(c), {'/'});
      NoBoundarySlash(n) && '\\' !in n && !EndsWith(n, "/")
  {
  }

  /** The loop-based `normalize_path`, as the source writes it. */
  method NormalizePath(raw: string) returns (p: string)
    ensures p == Normalize(raw)
    ensures NoBoundarySlash(p) && '\\' !in p
  {
    p := Strip(raw, Whitespace);
    p := LStrip(p, {'/'});
    p := ReplaceChar(p, '\\', '/');
    ghost var start := p;
    while |p| >= 2 && p[..2] == "./"
      invariant DropDotSlash(p) == DropDotSlash(start)
      decreases |p|
    {
      p := p[2..];
    }
    p := Strip(p, {'/'});
    NormalizeShape(raw);
  }

  /** A path that `normalize_path` leaves as it is. */
  predicate Clean(p: string) {
    && (p == [] || (p[0] !in Whitespace && p[|p| - 1] !in Whitespace))
    && NoBoundarySlash(p)
    && '\\' !in p
    && !StartsWith(p, "./")
  }

  /** A clean path is left as it is. */
  lemma CleanIsFixed(p: string)
    requires Clean(p)
    ensures Normalize(p) == p
  {
    assert Strip(p, Whitespace) == p;
    assert LStrip(p, {'/'}) == p;
    assert ReplaceChar(p, '\\', '/') == p;
    assert DropDotSlash(p) == p;
  }

  /** Every step of `normalize_path` keeps or shortens the path, and a path that is not
      clean loses at least one character on the way. */
  lemma UncleanShrinks(p: string)
    requires !Clean(p)
    requires NoBoundarySlash(p) && '\\' !in p
    ensures |Normalize(p)| < |p|
  {
    var a := Strip(p, Whitespace);
    var b := LStrip(a, {'/'});
    var c := ReplaceChar(b, '\\', '/');
    var d := DropDotSlash(c);
    assert |Normalize(p)| <= |d| <= |c| == |b| <= |a| <= |p|;
    if a == p {
      OnlyDotSlashLeft(p);
      assert b == p;
      assert c == p;
    }
  }

  /** A path that `strip()` leaves alone, with no boundary '/' and no '\', is unclean
      only through a leading "./". */
  lemma OnlyDotSlashLeft(p: string)
    requires Strip(p, Whitespace) == p && NoBoundarySlash(p) && '\\' !in p && !Clean(p)
    ensures StartsWith(p, "./")
  {
  }

  /** The fixed points of `normalize_path` are exactly the clean paths. */
  lemma NormalizeFixpoint(p: string)
    ensures Normalize(p) == p <==> Clean(p)
  {
    NormalizeShape(p);
    if Clean(p) {
      CleanIsFixed(p);
    } else if NoBoundarySlash(p) && '\\' !in p {
      UncleanShrinks(p);
    }
  }

  /** `normalize_path` is not idempotent: ".//./" + t gives "./" + t, which is not clean
      and so normalises to something else (".//./a" gives "./a", which gives "a"). */
  lemma NormalizeNotIdempotent(t: string)
    requires t != [] && t[0] != '/' && t[|t| - 1] !in Whitespace && t[|t| - 1] != '/'
    requires '\\' !in t
    ensures Normalize(".//./" + t) == "./" + t
    ensures Normalize(Normalize(".//./" + t)) != Normalize(".//./" + t)
  {
    var p, q, u := ".//./" + t, "/./" + t, "./" + t;
    assert p == "./" + q && q == "/" + u;
    DotSlashStep(p, q, u);
    assert StartsWith(u, "./");
    NormalizeFixpoint(u);
  }

  /** A path `p` without boundary whitespace or '\' whose one leading "./" leaves `q`,
      a '/' followed by `u`, normalises to `u` when `u` has no boundary '/'. */
  lemma DotSlashStep(p: string, q: string, u: string)
    requires p == "./" + q && q == "/" + u
    requires u != [] && u[0] != '/' && u[|u| - 1] !in Whitespace && u[|u| - 1] != '/'
    requires '\\' !in p
    ensures Normalize(p) == u
  {
    assert p[0] == '.' && p[|p| - 1] == u[|u| - 1];
    assert '.' !in Whitespace;
    assert Strip(p, Whitespace) == p;
    assert LStrip(p, {'/'}) == p;
    assert ReplaceChar(p, '\\', '/') == p;
    assert p[2..] == q && !StartsWith(q, "./");
    assert DropDotSlash(p) == q;
    SlashThen(q, u);
  }

  /** Stripping '/' from '/' followed by a path without boundary '/' gives that path. */
  lemma SlashThen(q: string, u: string)
    requires q == "/" + u && u != [] && u[0] != '/' && u[|u| - 1] != '/'
    ensures Strip(q, {'/'}) == u
  {
    assert q[1..] == u;
    KeepsEnds(u, {'/'});
    assert LStrip(q, {'/'}) == LStrip(u, {'/'});
  }

  /** A string whose first and last characters are not in `cs` is left alone by the left
      and the right strip. */
  lemma KeepsEnds(u: string, cs: set<char>)
    requires u != [] && u[0] !in cs && u[|u| - 1] !in cs
    ensures LStrip(u, cs) == u && RStrip(u, cs) == u
  {
  }

  /** `is_root(path)` */
  predicate IsRoot(path: string) {
    '/' !in Normalize(path)
  }

  /** `parent_dir(path)`: "" exactly for root paths; otherwise the text of the normalised
      path before its last '/', a non-empty proper prefix of it. */
  function ParentDir(path: string): (r: string)
    ensures r == [] <==> IsRoot(path)
    ensures !IsRoot(path) ==>
      var p := Normalize(path);
      |r| < |p| && p[..|r|] == r && p[|r|] == '/' && '/' !in p[|r| + 1..]
  {
    NormalizeShape(path);
    var p := Normalize(path);
    if '/' !in p then [] else p[..LastIndexOf(p, '/')]
  }

  /** `pathlib.Path(p).name` for a path that does not end with '/': the text after the last '/'. */
  function BaseName(p: string): (r: string)
    ensures '/' !in r
    ensures EndsWith(p, r)
    ensures r == p || p[|p| - |r| - 1] == '/'
  {
    p[LastIndexOf(p, '/') + 1..]
  }
}

=== FILE: snapshots.dfy ===
/** The snapshot commands of bin/hff.py, without the archive and the hub calls: the id a
    new snapshot gets (`snap_id_from_name`), the ids `snapshot list` finds among the repo's
    files, and the commit `snapshot destroy` makes. */
module Snapshots {
  import opened Strings
  import opened Ordering
  import opened RepoPaths
  import opened Commits

  // ---------------- snapshot ids ----------------

  /** `ch.isalnum()`, for ASCII characters. */
  predicate IsAlnum(c: char) {
    'a' <= c <= 'z' || 'A' <= c <= 'Z' || '0' <= c <= '9'
  }

  /** The characters a slug keeps besides letters and digits, and strips at both ends. */
  const SlugPunct: set<char> := {'.', '_', '-'}

  /** The longest slug `snap_id_from_name` keeps. */
  const MaxSlug: nat := 120

  /** Every character that is neither alphanumeric nor one of "._-" becomes '_'. */
  function Sanitize(name: string): (r: string)
    ensures |r| == |name|
    ensures forall c :: c in r ==> IsAlnum(c) || c in SlugPunct
    ensures forall i :: 0 <= i < |name| && (IsAlnum(name[i]) || name[i] in SlugPunct) ==> r[i] == name[i]
    ensures forall i :: 0 <= i < |name| && !IsAlnum(name[i]) && name[i] !in SlugPunct ==> r[i] == '_'
  {
    seq(|name|, i requires 0 <= i < |name| =>
      if IsAlnum(name[i]) || name[i] in SlugPunct then name[i] else '_')
  }

  /** The slug part of `snap_id_from_name(name)`: sanitised, stripped of "._-" at both
      ends, whitespace runs joined with '_', cut to 120 characters, or "snapshot" when
      nothing is left. It is never empty, holds only letters, digits and "._-", and does not
      start with one of "._-". */
  function Slug(name: string): (r: string)
    ensures 0 < |r| <= MaxSlug
    ensures forall c :: c in r ==> IsAlnum(c) || c in SlugPunct
    ensures r[0] !in SlugPunct
  {
    var stripped := Strip(Sanitize(name), SlugPunct);
    SlugSteps(stripped);
    var joined := Join("_", Words(stripped));
    if joined != [] then Take(joined, MaxSlug) else "snapshot"
  }

  /** The whitespace step changes nothing on a sanitised name, and the cut keeps the
      first character. */
  lemma SlugSteps(s: string)
    requires forall c :: c in s ==> IsAlnum(c) || c in SlugPunct
    requires s == [] || s[0] !in SlugPunct
    ensures Join("_", Words(s)) == s
    ensures var t := Take(s, MaxSlug);
      && (s != [] ==> t != [] && t[0] !in SlugPunct)
      && forall c :: c in t ==> IsAlnum(c) || c in SlugPunct
  {
    forall c | c in s ensures c !in Whitespace {
      assert IsAlnum(c) || c in SlugPunct;
    }
    SpacelessRejoin("_", s);
    var t := Take(s, MaxSlug);
    forall c | c in t ensures c in s {
      var i :| 0 <= i < |t| && t[i] == c;
      assert s[i] == c;
    }
  }

  /** The slug falls back to "snapshot" exactly when the name has no letter or digit. */
  lemma SlugFallback(name: string)
    ensures (forall i :: 0 <= i < |name| ==> !IsAlnum(name[i]))
        <==> Strip(Sanitize(name), SlugPunct) == []
    ensures (forall i :: 0 <= i < |name| ==> !IsAlnum(name[i])) ==> Slug(name) == "snapshot"
  {
    SanitizedPunct(name);
    StripEmpty(Sanitize(name), SlugPunct);
    if Strip(Sanitize(name), SlugPunct) == [] {
      NothingLeft(name);
    }
  }

  lemma NothingLeft(name: string)
    requires Strip(Sanitize(name), SlugPunct) == []
    ensures Slug(name) == "snapshot"
  {
    SlugSteps([]);
  }

  /** The sanitised name is all "._-" exactly when the name has no letter or digit. */
  lemma SanitizedPunct(name: string)
    ensures (forall i :: 0 <= i < |name| ==> !IsAlnum(name[i]))
        <==> forall i :: 0 <= i < |Sanitize(name)| ==> Sanitize(name)[i] in SlugPunct
  {
    var s := Sanitize(name);
    if exists i :: 0 <= i < |name| && IsAlnum(name[i]) {
      var i :| 0 <= i < |name| && IsAlnum(name[i]);
      assert s[i] == name[i];
    } else {
      forall i | 0 <= i < |s| ensures s[i] in SlugPunct {
        assert s[i] in s;
      }
    }
  }

  /** A name that is already a slug and also does not end with one of "._-" is kept as
      it is. */
  lemma SlugOfSlug(name: string)
    requires 0 < |name| <= MaxSlug
    requires forall c :: c in name ==> IsAlnum(c) || c in SlugPunct
    requires name[0] !in SlugPunct && name[|name| - 1] !in SlugPunct
    ensures Slug(name) == name
  {
    SanitizeKeeps(name);
    assert Strip(name, SlugPunct) == name;
    SlugSteps(name);
  }

  /** When something survives the strip, the slug is its first 120 characters. */
  lemma StrippedSlug(name: string)
    requires Strip(Sanitize(name), SlugPunct) != []
    ensures Slug(name) == Take(Strip(Sanitize(name), SlugPunct), MaxSlug)
  {
    SlugSteps(Strip(Sanitize(name), SlugPunct));
  }

  /** A slug ends with one of "._-" only when the 120-character cut left it there. */
  lemma SlugEndingInPunctIsCut(name: string)
    requires Slug(name)[|Slug(name)| - 1] in SlugPunct
    ensures |Slug(name)| == MaxSlug
    ensures |Strip(Sanitize(name), SlugPunct)| > MaxSlug
  {
    var stripped := Strip(Sanitize(name), SlugPunct);
    if stripped == [] {
      NothingLeft(name);
    } else {
      StrippedSlug(name);
    }
  }

  /** `snap_id_from_name` is not idempotent on its own slugs: a slug that the cut leaves
      ending in one of "._-" loses that ending when it is slugged again. */
  lemma CutSlugNotFixed(name: string)
    requires Slug(name)[|Slug(name)| - 1] in SlugPunct
    ensures Slug(Slug(name)) != Slug(name)
  {
    PunctEndNotFixed(Slug(name));
  }

  /** A name of at most 120 letters, digits and "._-" that does not start with one of
      "._-" but ends with one is not its own slug. */
  lemma PunctEndNotFixed(s: string)
    requires 0 < |s| <= MaxSlug && s[0] !in SlugPunct && s[|s| - 1] in SlugPunct
    requires forall c :: c in s ==> IsAlnum(c) || c in SlugPunct
    ensures Slug(s) != s
  {
    SanitizeKeeps(s);
    var stripped := Strip(s, SlugPunct);
    assert stripped != s;
    StripEmpty(s, SlugPunct);
    StrippedSlug(s);
  }

  /** A name of 119 letters or digits followed by "_b" is cut to a slug ending in '_'. */
  lemma CutTo(a: string, name: string)
    requires |a| == MaxSlug - 1 && name == a + "_b"
    requires forall i :: 0 <= i < |a| ==> IsAlnum(a[i])
    ensures Slug(name) == a + "_"
  {
    EndsThen(a, "_b", name);
    LongSlug(name);
  }

  /** 119 letters or digits followed by '_' are not their own slug. */
  lemma UnderscoreEndNotFixed(a: string, t: string)
    requires |a| == MaxSlug - 1 && t == a + "_"
    requires forall i :: 0 <= i < |a| ==> IsAlnum(a[i])
    ensures Slug(t) != t
  {
    EndsThen(a, "_", t);
    PunctEndNotFixed(t);
  }

  /** Letters and digits `a` followed by '_' and possibly "b" make a name of letters,
      digits and "._-" that starts with `a`, holds `a + "_"` first and ends with `b`'s last
      character. */
  lemma EndsThen(a: string, b: string, name: string)
    requires a != [] && name == a + b && (b == "_" || b == "_b")
    requires forall i :: 0 <= i < |a| ==> IsAlnum(a[i])
    ensures forall c :: c in name ==> IsAlnum(c) || c in SlugPunct
    ensures name[0] !in SlugPunct && name[|name| - 1] == b[|b| - 1]
    ensures name[..|a| + 1] == a + "_"
  {
    assert forall c :: c in b ==> IsAlnum(c) || c in SlugPunct;
    AlnumThen(a, b, name);
    assert name[0] == a[0];
  }

  /** Letters and digits followed by letters, digits and "._-" hold only those. */
  lemma AlnumThen(a: string, b: string, name: string)
    requires name == a + b
    requires forall i :: 0 <= i < |a| ==> IsAlnum(a[i])
    requires forall c :: c in b ==> IsAlnum(c) || c in SlugPunct
    ensures forall c :: c in name ==> IsAlnum(c) || c in SlugPunct
  {
    forall c | c in name ensures IsAlnum(c) || c in SlugPunct {
      var i :| 0 <= i < |name| && name[i] == c;
      if i < |a| {
        assert c == a[i];
      } else {
        assert c == b[i - |a|];
      }
    }
  }

  /** A name longer than 120 characters, of letters, digits and "._-", that neither starts
      nor ends with one of "._-" is cut to its first 120 characters. */
  lemma LongSlug(name: string)
    requires |name| > MaxSlug && name[0] !in SlugPunct && name[|name| - 1] !in SlugPunct
    requires forall c :: c in name ==> IsAlnum(c) || c in SlugPunct
    ensures Slug(name) == name[..MaxSlug]
  {
    SanitizeKeeps(name);
    assert Strip(name, SlugPunct) == name;
    StrippedSlug(name);
  }

  /** 119 'a' followed by "_b": the slug is the 119 'a' and '_', and its slug differs. */
  lemma CutExample()
    ensures var a := seq(MaxSlug - 1, _ => 'a');
      Slug(a + "_b") == a + "_" && Slug(a + "_") != a + "_"
  {
    var a := seq(MaxSlug - 1, _ => 'a');
    CutTo(a, a + "_b");
    UnderscoreEndNotFixed(a, a + "_");
  }

  /** A name of letters, digits and "._-" is its own sanitised form. */
  lemma SanitizeKeeps(name: string)
    requires forall c :: c in name ==> IsAlnum(c) || c in SlugPunct
    ensures Sanitize(name) == name
  {
    var s := Sanitize(name);
    forall i | 0 <= i < |name| ensures s[i] == name[i] {
      assert name[i] in name;
    }
  }

  /** `snap_id_from_name(name)` with the time stamp `time.strftime("%Y%m%d_%H%M%S")`
      passed in as `ts`: the time stamp, "__", then a non-empty slug of at most 120
      letters, digits and "._-" that does not start with one of "._-". */
  function SnapId(name: string, ts: string): (r: string)
    ensures |ts| + 2 < |r| <= |ts| + 2 + MaxSlug
    ensures StartsWith(r, ts + "__")
    ensures r[|ts| + 2..] == Slug(name)
    ensures r[|ts| + 2] !in SlugPunct
    ensures forall i :: |ts| + 2 <= i < |r| ==> IsAlnum(r[i]) || r[i] in SlugPunct
    ensures '/' !in ts ==> '/' !in r
  {
    IdParts(ts, Slug(name));
    ts + "__" + Slug(name)
  }

  /** A time stamp, "__" and a slug make an id that starts with the time stamp and "__",
      ends with the slug, and has a '/' only when the time stamp has one. */
  lemma IdParts(ts: string, slug: string)
    requires 0 < |slug| <= MaxSlug && slug[0] !in SlugPunct
    requires forall c :: c in slug ==> IsAlnum(c) || c in SlugPunct
    ensures var r := ts + "__" + slug;
      && |ts| + 2 < |r| <= |ts| + 2 + MaxSlug
      && StartsWith(r, ts + "__")
      && r[|ts| + 2..] == slug
      && r[|ts| + 2] !in SlugPunct
      && (forall i :: |ts| + 2 <= i < |r| ==> IsAlnum(r[i]) || r[i] in SlugPunct)
      && ('/' !in ts ==> '/' !in r)
  {
    var r := ts + "__" + slug;
    assert r[..|ts + "__"|] == ts + "__";
    assert r[|ts| + 2..] == slug;
    forall i | |ts| + 2 <= i < |r| ensures IsAlnum(r[i]) || r[i] in SlugPunct {
      assert r[i] == slug[i - |ts| - 2];
      assert slug[i - |ts| - 2] in slug;
    }
  }

  // ---------------- snapshot list ----------------

  /** The suffix of the manifest each snapshot uploads next to its archive. */
  const ManifestSuffix: string := ".manifest.json"

  /** `normalize_path(snapdir).rstrip("/") + "/"` */
  function SnapshotPrefix(snapdir: string): (r: string)
    ensures EndsWith(r, "/")
  {
    RStrip(Normalize(snapdir), {'/'}) + "/"
  }

  /** A manifest below the snapshot directory, at any depth. */
  predicate IsManifest(f: string, pref: string) {
    StartsWith(f, pref) && EndsWith(f, ManifestSuffix)
  }

  /** The id of a manifest: its file name without ".manifest.json". */
  function ManifestId(f: string): string {
    DropLast(BaseName(f), |ManifestSuffix|)
  }

  /** `{Path(f).name[:-len(".manifest.json")] for f in files if ...}` for the prefix `pref`. */
  function IdsUnder(files: seq<string>, pref: string): set<string> {
    set f | f in files && IsManifest(f, pref) :: ManifestId(f)
  }

  /** `x` is the name of a manifest somewhere below `pref`. */
  ghost predicate ManifestNamed(files: seq<string>, pref: string, x: string) {
    '/' !in x && exists f :: f in files && StartsWith(f, pref) && EndsWith(f, "/" + x + ManifestSuffix)
  }

  /** `cmd_snapshot_list`: the names of the manifests below the snapshot directory, in a
      sub-directory too, newest first (ids start with their time stamp) and each once. */
  method SnapshotList(files: seq<string>, snapdir: string) returns (ids: seq<string>)
    ensures StrictlySorted(ids, true)
    ensures forall x :: x in ids <==> ManifestNamed(files, SnapshotPrefix(snapdir), x)
  {
    var dir := NormalizePath(snapdir);
    var pref := RStrip(dir, {'/'}) + "/";
    ids := ListIds(files, pref);
  }

  /** The ids of the manifests below the prefix `pref`, sorted newest first. */
  method ListIds(files: seq<string>, pref: string) returns (ids: seq<string>)
    requires EndsWith(pref, "/")
    ensures StrictlySorted(ids, true)
    ensures forall x :: x in ids <==> ManifestNamed(files, pref, x)
  {
    var found := IdsUnder(files, pref);
    ids := Sorted(found, true);
    forall x ensures x in found <==> ManifestNamed(files, pref, x) {
      ManifestIds(files, pref, x);
    }
  }

  /** The file after the last '/' of a manifest path is the id followed by the suffix. */
  lemma ManifestName(f: string, pref: string)
    requires IsManifest(f, pref) && EndsWith(pref, "/")
    ensures '/' !in ManifestId(f)
    ensures EndsWith(f, "/" + ManifestId(f) + ManifestSuffix)
  {
    assert f[|pref| - 1] == '/';
    assert '/' in f;
    NameBeforeSuffix(f, ManifestSuffix);
  }

  /** In a path with a '/' that ends with a non-empty suffix without one, the file name
      with the suffix dropped is a name without '/' that the path ends with, after a '/'. */
  lemma NameBeforeSuffix(f: string, suffix: string)
    requires EndsWith(f, suffix) && '/' !in suffix && '/' in f && suffix != []
    ensures '/' !in DropLast(BaseName(f), |suffix|)
    ensures EndsWith(f, "/" + DropLast(BaseName(f), |suffix|) + suffix)
  {
    var k := LastIndexOf(f, '/');
    assert k < |f| - |suffix| by { LastSlashBeforeSuffix(f, suffix); }
    SlashNameSuffix(f, suffix, k, BaseName(f));
  }

  /** Cutting `f` at a last '/' at `k` and before its suffix. */
  lemma SlashNameSuffix(f: string, suffix: string, k: nat, b: string)
    requires EndsWith(f, suffix) && suffix != []
    requires k < |f| - |suffix| && f[k] == '/' && '/' !in f[k + 1..] && b == f[k + 1..]
    ensures '/' !in DropLast(b, |suffix|)
    ensures EndsWith(f, "/" + DropLast(b, |suffix|) + suffix)
  {
    var n := |suffix|;
    var id := f[k + 1..|f| - n];
    assert forall i :: 0 <= i < |id| ==> id[i] == b[i];
    assert DropLast(b, n) == id;
    assert f[|f| - n..] == suffix;
    assert f[k..] == "/" + id + suffix;
  }

  /** In a path that has a '/' and ends with a suffix without one, the last '/' comes
      before the suffix. */
  lemma LastSlashBeforeSuffix(f: string, suffix: string)
    requires EndsWith(f, suffix) && '/' !in suffix && '/' in f
    ensures 0 <= LastIndexOf(f, '/') < |f| - |suffix|
  {
    var k := LastIndexOf(f, '/');
    assert f[|f| - |suffix|..] == suffix;
  }

  /** A file ending in "/" + id + suffix, with no '/' in the id, has that id. */
  lemma ManifestIdOf(f: string, x: string)
    requires EndsWith(f, "/" + x + ManifestSuffix) && '/' !in x
    ensures ManifestId(f) == x
    ensures EndsWith(f, ManifestSuffix)
  {
    var t := "/" + x + ManifestSuffix;
    var k := |f| - |t|;
    assert f[k..] == t;
    assert f[k] == '/';
    assert '/' !in f[k + 1..] by {
      assert f[k + 1..] == x + ManifestSuffix;
    }
    assert LastIndexOf(f, '/') == k;
    assert BaseName(f) == x + ManifestSuffix;
    assert (x + ManifestSuffix)[..|x|] == x;
    assert f[|f| - |ManifestSuffix|..] == t[|x| + 1..];
  }

  /** The ids found below `pref` are exactly the names of the manifests below it. */
  lemma ManifestIds(files: seq<string>, pref: string, x: string)
    requires EndsWith(pref, "/")
    ensures x in IdsUnder(files, pref) <==> ManifestNamed(files, pref, x)
  {
    if x in IdsUnder(files, pref) {
      var f :| f in files && IsManifest(f, pref) && ManifestId(f) == x;
      ManifestName(f, pref);
    }
    if ManifestNamed(files, pref, x) {
      var f :| f in files && StartsWith(f, pref) && EndsWith(f, "/" + x + ManifestSuffix);
      ManifestIdOf(f, x);
    }
  }

  /** The manifest `<pref><id>.manifest.json` of an id without '/'. */
  lemma ManifestPath(pref: string, id: string)
    requires EndsWith(pref, "/") && '/' !in id
    ensures var f := pref + id + ManifestSuffix;
      StartsWith(f, pref) && EndsWith(f, "/" + id + ManifestSuffix)
  {
    var f := pref + id + ManifestSuffix;
    assert f[..|pref|] == pref;
    assert f[|pref| - 1..] == "/" + id + ManifestSuffix;
  }

  /** The manifest that `snapshot create` uploads to the snapshot directory, for a name
      and a time stamp, makes `snapshot list` show the snapshot's id. */
  lemma CreatedSnapshotListed(files: seq<string>, snapdir: string, name: string, ts: string)
    requires '/' !in ts
    requires SnapshotPrefix(snapdir) + SnapId(name, ts) + ManifestSuffix in files
    ensures ManifestNamed(files, SnapshotPrefix(snapdir), SnapId(name, ts))
  {
    ManifestPath(SnapshotPrefix(snapdir), SnapId(name, ts));
  }

  // ---------------- snapshot destroy ----------------

  /** The files of snapshot `id` below `pref`: those whose path starts with `pref + id + "."`. */
  function SnapshotFiles(files: seq<string>, pref: string, id: string): set<string> {
    set f | f in files && StartsWith(f, pref + id + ".")
  }

  /** What `cmd_snapshot_destroy` does with the snapshot prefix `pref`. `yes` is the
      `--yes` flag and `typed` the line `input()` reads, looked at only without `--yes`. */
  function DestroyIn(files: seq<string>, pref: string, id: string, yes: bool, typed: string): Plan {
    if id == [] then Exit(2)
    else
      var targets := WithPrefix(files, pref + id + ".");
      if targets == [] then Exit(1)
      else if !yes && Strip(typed, Whitespace) != "DELETE" then Exit(1)
      else Commit(Deletes(targets), "destroy snapshot " + id)
  }

  /** `cmd_snapshot_destroy` */
  function Destroy(files: seq<string>, snapdir: string, id: string, yes: bool, typed: string): Plan {
    DestroyIn(files, SnapshotPrefix(snapdir), id, yes, typed)
  }

  /** `Deletes(targets)` is one deletion per target, in the same order. */
  lemma {:induction false} DeletesInOrder(targets: seq<string>)
    ensures |Deletes(targets)| == |targets|
    ensures forall i :: 0 <= i < |targets| ==> Deletes(targets)[i] == Delete(targets[i])
  {
    if targets != [] {
      DeletesInOrder(targets[1..]);
    }
  }

  /** The outcome of destroying snapshot `id` below `pref`. */
  lemma DestroyInOutcome(files: seq<string>, pref: string, id: string, yes: bool, typed: string)
    ensures var r, matched := DestroyIn(files, pref, id, yes, typed), SnapshotFiles(files, pref, id);
      && (r == Exit(2) <==> id == [])
      && (r == Exit(1) <==> id != [] && (matched == {} || (!yes && Strip(typed, Whitespace) != "DELETE")))
      && (r.Commit? <==> id != [] && matched != {} && (yes || Strip(typed, Whitespace) == "DELETE"))
      && (r.Commit? ==> r.message == "destroy snapshot " + id)
      && (r.Commit? ==> forall op :: op in r.ops ==> op.Delete? && op.path in matched)
      && (r.Commit? ==> Apply(FileSet(files), r.ops) == FileSet(files) - matched)
  {
    var targets := WithPrefix(files, pref + id + ".");
    var matched := SnapshotFiles(files, pref, id);
    assert FileSet(targets) == matched;
    if targets != [] {
      assert targets[0] in matched;
    }
    if matched != {} {
      var f :| f in matched;
      assert f in targets;
    }
    DeletesInOrder(targets);
    ApplyDeletes(FileSet(files), targets);
  }

  /** What `snapshot destroy` does on every input: exit 2 without an id, exit 1 when no
      file matches or the confirmation is not "DELETE"; otherwise one commit titled
      "destroy snapshot <id>" that deletes the snapshot's files and nothing else. */
  lemma DestroyOutcome(files: seq<string>, snapdir: string, id: string, yes: bool, typed: string)
    ensures var r, matched := Destroy(files, snapdir, id, yes, typed), SnapshotFiles(files, SnapshotPrefix(snapdir), id);
      && (r == Exit(2) <==> id == [])
      && (r == Exit(1) <==> id != [] && (matched == {} || (!yes && Strip(typed, Whitespace) != "DELETE")))
      && (r.Commit? <==> id != [] && matched != {} && (yes || Strip(typed, Whitespace) == "DELETE"))
      && (r.Commit? ==> r.message == "destroy snapshot " + id)
      && (r.Commit? ==> forall op :: op in r.ops ==> op.Delete? && op.path in matched)
      && (r.Commit? ==> Apply(FileSet(files), r.ops) == FileSet(files) - matched)
  {
    DestroyInOutcome(files, SnapshotPrefix(snapdir), id, yes, typed);
  }

  /** The deletions follow the repo's file list: cut the list anywhere, and the
      deletions of the files before the cut come first. */
  lemma DestroyFollowsList(files: seq<string>, pref: string, id: string, yes: bool, typed: string, cut: nat)
    requires cut <= |files|
    ensures var r, p := DestroyIn(files, pref, id, yes, typed), pref + id + ".";
      r.Commit? ==> r.ops == Deletes(WithPrefix(files[..cut], p)) + Deletes(WithPrefix(files[cut..], p))
  {
    var p := pref + id + ".";
    assert files == files[..cut] + files[cut..];
    WithPrefixConcat(files[..cut], files[cut..], p);
    DeletesConcat(WithPrefix(files[..cut], p), WithPrefix(files[cut..], p));
  }

  /** With `--yes`, destroying a snapshot whose manifest sits in the snapshot directory
      commits and removes that manifest. */
  lemma DestroyListed(files: seq<string>, pref: string, id: string)
    requires id != []
    requires pref + id + ManifestSuffix in files
    ensures DestroyIn(files, pref, id, true, []).Commit?
    ensures pref + id + ManifestSuffix !in Apply(FileSet(files), DestroyIn(files, pref, id, true, []).ops)
  {
    var m := pref + id + ManifestSuffix;
    assert m in SnapshotFiles(files, pref, id) by {
      var p := pref + id + ".";
      assert m[..|p|] == p;
    }
    DestroyInOutcome(files, pref, id, true, []);
  }
}

=== FILE: strings.dfy ===
/** Python's built-in string operations that bin/hff.py relies on, as pure functions. */
module Strings {

  /** The characters for which Python's `str.isspace()` holds. */
  const Whitespace: set<char> := {
    '\t', '\n', '\U{000B}', '\U{000C}', '\r', '\U{001C}', '\U{001D}', '\U{001E}', '\U{001F}', ' ',
    '\U{0085}', '\U{00A0}', '\U{1680}',
    '\U{2000}', '\U{2001}', '\U{2002}', '\U{2003}', '\U{2004}', '\U{2005}',
    '\U{2006}', '\U{2007}', '\U{2008}', '\U{2009}', '\U{200A}',
    '\U{2028}', '\U{2029}', '\U{202F}', '\U{205F}', '\U{3000}'
  }

  /** `s.startswith(prefix)` */
  predicate StartsWith(s: string, prefix: string) {
    |prefix| <= |s| && s[..|prefix|] == prefix
  }

  /** `s.endswith(suffix)` */
  predicate EndsWith(s: string, suffix: string) {
    |suffix| <= |s| && s[|s| - |suffix|..] == suffix
  }

  /** `s.lstrip(cs)`: drops the longest prefix made of characters of `cs`. */
  function LStrip(s: string, cs: set<char>): (r: string)
    ensures |r| <= |s| && r == s[|s| - |r|..]
    ensures r == [] || r[0] !in cs
    ensures forall i :: 0 <= i < |s| - |r| ==> s[i] in cs
  {
    if s != [] && s[0] in cs then LStrip(s[1..], cs) else s
  }

  /** `s.rstrip(cs)`: drops the longest suffix made of characters of `cs`. */
  function RStrip(s: string, cs: set<char>): (r: string)
    ensures |r| <= |s| && r == s[..|r|]
    ensures r == [] || r[|r| - 1] !in cs
    ensures forall i :: |r| <= i < |s| ==> s[i] in cs
  {
    if s != [] && s[|s| - 1] in cs then RStrip(s[..|s| - 1], cs) else s
  }

  /** `s.strip(cs)`: the contiguous middle of `s` left after removing characters of `cs`
      at both ends; it neither starts nor ends with one, and it is `s` itself exactly when
      `s` already has no such boundary character. */
  function Strip(s: string, cs: set<char>): (r: string)
    ensures r == [] || (r[0] !in cs && r[|r| - 1] !in cs)
    ensures |r| <= |s|
    ensures exists i :: StripsTo(s, cs, i, r)
    ensures forall c :: c in r ==> c in s
    ensures r == s <==> (s == [] || (s[0] !in cs && s[|s| - 1] !in cs))
  {
    var l := LStrip(s, cs);
    var r := RStrip(l, cs);
    StripPieces(s, cs, l, r);
    r
  }

  /** `r` is `s[i..i + |r|]`, and every character of `s` before or after it is in `cs`. */
  predicate StripsTo(s: string, cs: set<char>, i: nat, r: string) {
    && i + |r| <= |s| && r == s[i..i + |r|]
    && (forall j :: 0 <= j < i ==> s[j] in cs)
    && (forall j :: i + |r| <= j < |s| ==> s[j] in cs)
  }

  /** What `Strip` promises, for any `l` that drops a prefix of characters of `cs` from
      `s` and stops at one outside it, and any `r` that does the same at the end of `l`. */
  lemma StripPieces(s: string, cs: set<char>, l: string, r: string)
    requires |l| <= |s| && l == s[|s| - |l|..]
    requires l == [] || l[0] !in cs
    requires forall i :: 0 <= i < |s| - |l| ==> s[i] in cs
    requires |r| <= |l| && r == l[..|r|]
    requires r == [] || r[|r| - 1] !in cs
    requires forall i :: |r| <= i < |l| ==> l[i] in cs
    ensures r == [] || (r[0] !in cs && r[|r| - 1] !in cs)
    ensures |r| <= |s|
    ensures StripsTo(s, cs, |s| - |l|, r)
    ensures forall c :: c in r ==> c in s
    ensures r == s <==> (s == [] || (s[0] !in cs && s[|s| - 1] !in cs))
  {
    var i := |s| - |l|;
    forall j | i + |r| <= j < |s| ensures s[j] in cs {
      assert s[j] == l[j - i];
    }
    assert r == s[i..i + |r|];
    forall c | c in r ensures c in s {
      var k :| 0 <= k < |r| && r[k] == c;
      assert s[|s| - |l| + k] == c;
    }
    if s != [] && s[0] !in cs && s[|s| - 1] !in cs {
      assert |l| == |s|;
      assert |r| == |l|;
    }
  }

  /** `s.replace(target, replacement)` for single characters. */
  function ReplaceChar(s: string, target: char, replacement: char): (r: string)
    ensures |r| == |s|
    ensures forall i {:trigger Replaced(s[i], r[i], target, replacement)} :: 0 <= i < |s| ==>
      Replaced(s[i], r[i], target, replacement)
    ensures target != replacement ==> target !in r
    ensures forall c :: c in r && c != replacement ==> c in s
    ensures target !in s ==> r == s
  {
    seq(|s|, i requires 0 <= i < |s| => if s[i] == target then replacement else s[i])
  }

  /** `d` is what `replace(target, replacement)` makes of the character `c`: the
      replacement for the target, `c` itself otherwise. */
  predicate Replaced(c: char, d: char, target: char, replacement: char) {
    d == if c == target then replacement else c
  }

  /** `s.find(c)`: the first position of `c`, or -1. */
  function IndexOf(s: string, c: char): (k: int)
    ensures -1 <= k < |s|
    ensures k == -1 <==> c !in s
    ensures 0 <= k ==> s[k] == c && c !in s[..k]
  {
    if s == [] then -1
    else if s[0] == c then 0
    else
      var k := IndexOf(s[1..], c);
      if k == -1 then -1
      else
        assert s[..k + 1] == [s[0]] + s[1..][..k];
        k + 1
  }

  /** `s.rfind(c)`: the last position of `c`, or -1. */
  function LastIndexOf(s: string, c: char): (k: int)
    ensures -1 <= k < |s|
    ensures k == -1 <==> c !in s
    ensures 0 <= k ==> s[k] == c && c !in s[k + 1..]
  {
    if s == [] then -1
    else if s[|s| - 1] == c then |s| - 1
    else
      var k := LastIndexOf(s[..|s| - 1], c);
      assert k >= 0 ==> s[k + 1..] == s[..|s| - 1][k + 1..] + [s[|s| - 1]];
      assert c in s[..|s| - 1] ==> c in s;
      k
  }

  /** `s.split(sep, 1)[0]`: the text before the first `sep`, or all of `s`. */
  function SplitFirst(s: string, sep: char): (r: string)
    ensures sep !in r
    ensures sep !in s ==> r == s
    ensures sep in s ==> StartsWith(s, r + [sep])
  {
    var k := IndexOf(s, sep);
    if k < 0 then s else s[..k]
  }

  /** `[f for f in xs if f.startswith(prefix)]`, keeping the list's order. */
  function WithPrefix(xs: seq<string>, prefix: string): (r: seq<string>)
    ensures forall f :: f in r <==> f in xs && StartsWith(f, prefix)
  {
    if xs == [] then []
    else (if StartsWith(xs[0], prefix) then [xs[0]] else []) + WithPrefix(xs[1..], prefix)
  }

  /** Filtering a concatenation filters each part: the kept strings stay in their order. */
  lemma {:induction false} WithPrefixConcat(xs: seq<string>, ys: seq<string>, prefix: string)
    ensures WithPrefix(xs + ys, prefix) == WithPrefix(xs, prefix) + WithPrefix(ys, prefix)
    decreases |xs|
  {
    if xs == [] {
      assert xs + ys == ys;
    } else {
      assert (xs + ys)[0] == xs[0] && (xs + ys)[1..] == xs[1..] + ys;
      WithPrefixConcat(xs[1..], ys, prefix);
    }
  }

  /** `s[:n]` for n >= 0. */
  function Take(s: string, n: nat): (r: string)
    ensures |r| == if |s| <= n then |s| else n
    ensures StartsWith(s, r)
    ensures |s| <= n ==> r == s
  {
    if |s| <= n then s else s[..n]
  }

  /** `s[:-n]` for n > 0: Python clamps, so a string shorter than `n` gives "". */
  function DropLast(s: string, n: nat): (r: string)
    requires n > 0
    ensures n <= |s| ==> s == r + s[|s| - n..]
    ensures |s| < n ==> r == []
  {
    if n <= |s| then s[..|s| - n] else []
  }

  /** `s.strip(cs)` is empty exactly when every character of `s` is in `cs`. */
  lemma StripEmpty(s: string, cs: set<char>)
    ensures Strip(s, cs) == [] <==> forall i :: 0 <= i < |s| ==> s[i] in cs
  {
    var l := LStrip(s, cs);
    var r := RStrip(l, cs);
    assert Strip(s, cs) == r;
    if r == [] {
      // `l` does not start with a character of `cs`, and `rstrip` removed all of it.
      assert l == [];
    } else {
      assert r[0] == l[0] == s[|s| - |l|];
    }
  }

  // ---- str(i) for a natural number, and its inverse ----

  function DigitChar(d: nat): (c: char)
    requires d < 10
    ensures '0' <= c <= '9'
  {
    (48 + d) as char
  }

  function DigitValue(c: char): nat {
    if '0' <= c <= '9' then c as int - 48 else 0
  }

  /** `str(n)`: the decimal digits of `n` without leading zeros. */
  function DecimalString(n: nat): (r: string)
    ensures |r| >= 1
    ensures forall c :: c in r ==> '0' <= c <= '9'
  {
    if n < 10 then [DigitChar(n)] else DecimalString(n / 10) + [DigitChar(n % 10)]
  }

  /** `int(s)` for a string of digits. */
  function DecimalValue(s: string): nat {
    if s == [] then 0 else DecimalValue(s[..|s| - 1]) * 10 + DigitValue(s[|s| - 1])
  }

  /** Reading back the digits of `str(n)` gives `n`. */
  lemma {:induction false} DecimalRoundTrip(n: nat)
    ensures DecimalValue(DecimalString(n)) == n
  {
    var s := DecimalString(n);
    if n < 10 {
      assert s[..|s| - 1] == [];
    } else {
      assert s[..|s| - 1] == DecimalString(n / 10);
      DecimalRoundTrip(n / 10);
    }
  }

  /** Distinct numbers have distinct decimal strings. */
  lemma DecimalInjective(m: nat, n: nat)
    requires DecimalString(m) == DecimalString(n)
    ensures m == n
  {
    DecimalRoundTrip(m);
    DecimalRoundTrip(n);
  }

  // ---- str.split() with no argument, and str.join ----

  /** The position of the first character of `cs` in `s`, or |s|. */
  function FirstIn(s: string, cs: set<char>): (k: nat)
    ensures k <= |s|
    ensures forall i :: 0 <= i < k ==> s[i] !in cs
    ensures k < |s| ==> s[k] in cs
  {
    if s == [] || s[0] in cs then 0 else 1 + FirstIn(s[1..], cs)
  }

  /** `split` defined one character at a time: a character of `cs` belongs to no piece;
      any other character joins the piece that starts right after it when the next
      character is outside `cs` too, and is a piece of its own otherwise. */
  function SplitByChar(s: string, cs: set<char>): (r: seq<string>)
    ensures s != [] && s[0] !in cs ==> r != []
    decreases |s|
  {
    if s == [] then []
    else
      var rest := SplitByChar(s[1..], cs);
      if s[0] in cs then rest
      else if |s| > 1 && s[1] !in cs then [[s[0]] + rest[0]] + rest[1..]
      else [[s[0]]] + rest
  }

  /** Separators at either end and runs of several separators give no empty piece. */
  lemma SplitByCharExample()
    ensures SplitByChar(" ab  c ", {' '}) == ["ab", "c"]
  {
    assert " "[1..] == "";
    assert SplitByChar(" ", {' '}) == [];
    assert "c "[1..] == " ";
    assert SplitByChar("c ", {' '}) == ["c"];
    assert " c "[1..] == "c ";
    assert SplitByChar(" c ", {' '}) == ["c"];
    assert "  c "[1..] == " c ";
    assert SplitByChar("  c ", {' '}) == ["c"];
    assert "b  c "[1..] == "  c ";
    assert SplitByChar("b  c ", {' '}) == ["b", "c"];
    assert "ab  c "[1..] == "b  c " && ['a'] + "b" == "ab";
    assert SplitByChar("ab  c ", {' '}) == ["ab", "c"];
    assert " ab  c "[1..] == "ab  c ";
    assert SplitByChar(" ab  c ", {' '}) == ["ab", "c"];
  }

  /** Leading characters of `cs` do not change the split. */
  lemma {:induction false} SplitSkip(s: string, cs: set<char>)
    ensures SplitByChar(s, cs) == SplitByChar(LStrip(s, cs), cs)
    decreases |s|
  {
    if s != [] && s[0] in cs {
      SplitSkip(s[1..], cs);
    }
  }

  /** A run of `k` characters outside `cs`, followed by the end or by a character of `cs`,
      is the first piece of the split. */
  lemma {:induction false} SplitRun(t: string, cs: set<char>, k: nat)
    requires 0 < k <= |t|
    requires forall i :: 0 <= i < k ==> t[i] !in cs
    requires k == |t| || t[k] in cs
    ensures SplitByChar(t, cs) == [t[..k]] + SplitByChar(t[k..], cs)
    decreases k
  {
    if k == 1 {
      assert t[..1] == [t[0]] && t[1..] == t[k..];
    } else {
      SplitRun(t[1..], cs, k - 1);
      assert [t[0]] + t[1..][..k - 1] == t[..k];
      assert t[1..][k - 1..] == t[k..];
    }
  }

  /** A non-empty piece without a character of `cs`. */
  predicate IsRun(w: string, cs: set<char>) {
    w != [] && forall c :: c in w ==> c !in cs
  }

  /** The maximal runs of characters not in `cs`, in order: the split that
      `SplitByChar` defines. */
  function Runs(s: string, cs: set<char>): (r: seq<string>)
    ensures forall w :: w in r ==> IsRun(w, cs)
    ensures r == SplitByChar(s, cs)
    decreases |s|
  {
    var t := LStrip(s, cs);
    SplitSkip(s, cs);
    if t == [] then []
    else
      var k := FirstIn(t, cs);
      FirstRun(t, cs);
      SplitRun(t, cs, k);
      [t[..k]] + Runs(t[k..], cs)
  }

  /** `s.split()`: the maximal runs of non-whitespace characters, in order. */
  function Words(s: string): (r: seq<string>)
    ensures forall w :: w in r ==> IsRun(w, Whitespace)
    ensures r == SplitByChar(s, Whitespace)
  {
    Runs(s, Whitespace)
  }

  /** The run before the first character of `cs` is non-empty when `t` does not start with
      one, and holds none. */
  lemma FirstRun(t: string, cs: set<char>)
    requires t != [] && t[0] !in cs
    ensures var k := FirstIn(t, cs); k > 0 && IsRun(t[..k], cs)
  {
    var k := FirstIn(t, cs);
    forall c | c in t[..k] ensures c !in cs {
      var i :| 0 <= i < k && t[..k][i] == c;
      assert t[i] == c;
    }
  }

  /** `sep.join(parts)` */
  function Join(sep: string, parts: seq<string>): string {
    if parts == [] then []
    else if |parts| == 1 then parts[0]
    else parts[0] + sep + Join(sep, parts[1..])
  }

  /** On a string without whitespace, `sep.join(s.split())` gives the string back. */
  lemma SpacelessRejoin(sep: string, s: string)
    requires forall c :: c in s ==> c !in Whitespace
    ensures Join(sep, Words(s)) == s
  {
    RunsOfRunFree(s, Whitespace);
  }

  /** A non-empty string without a character of `cs` is one run; the empty string has none. */
  lemma RunsOfRunFree(s: string, cs: set<char>)
    requires forall c :: c in s ==> c !in cs
    ensures Runs(s, cs) == if s == [] then [] else [s]
  {
    if s != [] {
      assert LStrip(s, cs) == s;
      var k := FirstIn(s, cs);
      assert k == |s|;
      assert s[k..] == [] && s[..k] == s;
      assert LStrip([], cs) == [];
      assert Runs(s[k..], cs) == [];
    }
  }
}

=== FILE: virtual_dirs.dfy ===
/** The repo's flat file list seen as a directory tree: `ensure_dir_ops`, which makes a
    directory exist by committing `<dir>/.gitkeep`, and `unique_dest`, which picks a free
    `__dupN` name. */
module VirtualDirs {
  import opened Strings
  import opened RepoPaths
  import opened Commits

  /** The marker file of a directory: `<normalize_path(dir)>/.gitkeep`. */
  function KeepFile(dir: string): string {
    Normalize(dir) + "/.gitkeep"
  }

  /** The operations that make the already normalised directory `d` exist. */
  function MarkerOps(existing: set<string>, d: string): seq<Op> {
    if d == [] || d + "/.gitkeep" in existing then [] else [Add(d + "/.gitkeep", [])]
  }

  /** The operations `ensure_dir_ops(existing, dir)` returns. */
  function DirOps(existing: set<string>, dir: string): seq<Op> {
    MarkerOps(existing, Normalize(dir))
  }

  lemma MarkerOpsEffect(existing: set<string>, d: string)
    ensures Apply(existing, MarkerOps(existing, d))
      == if d == [] then existing else existing + {d + "/.gitkeep"}
    ensures MarkerOps(Apply(existing, MarkerOps(existing, d)), d) == []
  {
    var ops := MarkerOps(existing, d);
    if ops != [] {
      assert ops[1..] == [];
      assert Apply(existing, ops) == Apply(existing + {d + "/.gitkeep"}, []);
    }
  }

  /** After committing its operations the directory's marker exists (unless the directory
      normalises to the root), nothing else changes, and asking again gives no operations. */
  lemma DirOpsEffect(existing: set<string>, dir: string)
    ensures Apply(existing, DirOps(existing, dir))
      == if Normalize(dir) == [] then existing else existing + {KeepFile(dir)}
    ensures DirOps(Apply(existing, DirOps(existing, dir)), dir) == []
  {
    MarkerOpsEffect(existing, Normalize(dir));
  }

  /** A Python `set` of repo paths that callers share and `ensure_dir_ops` grows in place. */
  class PathSet {
    var paths: set<string>

    /** `set(files)` */
    constructor (files: seq<string>)
      ensures paths == FileSet(files)
    {
      paths := FileSet(files);
    }
  }

  /** `ensure_dir_ops(existing, dir_path)`: returns no operation when the directory
      normalises to "" or its marker is already listed; otherwise one `Add` of the marker
      with empty content, and the marker is added to the caller's set. */
  method EnsureDirOps(existing: PathSet, dirPath: string) returns (ops: seq<Op>)
    modifies existing
    ensures ops == DirOps(old(existing.paths), dirPath)
    ensures existing.paths == Apply(old(existing.paths), ops)
    ensures |ops| <= 1
  {
    ops := [];
    var d := NormalizePath(dirPath);
    MarkerOpsEffect(existing.paths, d);
    if d == [] {
      return;
    }
    var keep := d + "/.gitkeep";
    if keep !in existing.paths {
      ops := ops + [Add(keep, [])];
      existing.paths := existing.paths + {keep};
    }
  }

  /** The `i`-th candidate name of `unique_dest`: `f"{dest}__dup{i}"`. */
  function DupName(dest: string, i: nat): string {
    dest + "__dup" + DecimalString(i)
  }

  lemma DupNameInjective(dest: string, i: nat, j: nat)
    requires DupName(dest, i) == DupName(dest, j)
    ensures i == j
  {
    var n := |dest| + 5;
    assert DupName(dest, i)[n..] == DecimalString(i);
    assert DupName(dest, j)[n..] == DecimalString(j);
    DecimalInjective(i, j);
  }

  /** `r` is what `unique_dest(dest, existing)` must return: `dest` when it is free,
      otherwise the first free `dest__dupN` with N >= 1. */
  ghost predicate IsFirstFree(dest: string, existing: set<string>, r: string) {
    && r !in existing
    && (dest !in existing ==> r == dest)
    && (dest in existing ==>
          exists k: nat :: k >= 1 && r == DupName(dest, k)
            && forall j: nat :: 1 <= j < k ==> DupName(dest, j) in existing)
  }

  /** At most one name satisfies `IsFirstFree`. */
  lemma FirstFreeUnique(dest: string, existing: set<string>, r1: string, r2: string)
    requires IsFirstFree(dest, existing, r1) && IsFirstFree(dest, existing, r2)
    ensures r1 == r2
  {
    if dest in existing {
      var k1: nat :| k1 >= 1 && r1 == DupName(dest, k1)
        && forall j: nat :: 1 <= j < k1 ==> DupName(dest, j) in existing;
      var k2: nat :| k2 >= 1 && r2 == DupName(dest, k2)
        && forall j: nat :: 1 <= j < k2 ==> DupName(dest, j) in existing;
    }
  }

  /** `unique_dest(dest, existing)`. The loop ends because every name it passes over is
      a different member of the finite set `existing`. */
  method UniqueDest(dest: string, existing: set<string>) returns (r: string)
    ensures IsFirstFree(dest, existing, r)
    ensures r !in existing
  {
    if dest !in existing {
      return dest;
    }
    var i: nat := 1;
    ghost var passed: set<string> := {};
    while true
      invariant i >= 1
      invariant passed <= existing
      invariant passed == set j: nat | 1 <= j < i :: DupName(dest, j)
      invariant forall j: nat :: 1 <= j < i ==> DupName(dest, j) in existing
      decreases |existing - passed|
    {
      var cand := DupName(dest, i);
      if cand !in existing {
        return cand;
      }
      forall j: nat | 1 <= j < i
        ensures DupName(dest, j) != cand
      {
        if DupName(dest, j) == cand { DupNameInjective(dest, j, i); }
      }
      assert cand !in passed;
      assert existing - (passed + {cand}) == (existing - passed) - {cand};
      passed := passed + {cand};
      i := i + 1;
    }
  }
}
